=== FILE: README.md ===
# FoodSnap core in Dafny

FoodSnap is a mobile app. The user photographs their ingredients. A
generative vision model lists what it sees, the user corrects the list, and
a second model call proposes recipes that fit the user's preferences (time,
goal, diets, servings). This project models the logic of the app's core as
pure Dafny functions and proves properties about it:

- **Home screen** (`app/index.tsx`):
  - the four views and back navigation;
  - the effect that clears data on entering the home view;
  - preference merging;
  - the two asynchronous flows, each split into its synchronous start and its completion;
  - the aggregation of per-image ingredient lists: an all-or-nothing join,
    deduplication by normalised name keeping the first occurrence, and
    `ing-<time>-<index>` ids.
- **Model service** (`services/geminiService.ts`): the pure parts.
  - Extraction of the image payload.
  - The variable fields of the recipe prompt.
  - The result policy: a failed call raises a fixed error, text that does not
    parse gives an empty list, and parsed items get index-based ids.
  - The model endpoint and `JSON.parse` are function parameters.
- **Components**:
  - the image uploader's preview list and its buttons;
  - the ingredient editor's add, remove and update operations;
  - the preference controls of the suggestions screen;
  - the picture choice, tag truncation, nutrition grid and step numbering
    of the recipe card and the detail view.
- **Records** (`types/index.ts`): datatypes with `Option` for optional
  properties.

The clock (`Date.now()`) is a parameter `stamp: nat -> nat`: it gives the
reading taken for the element at each index. Every id property holds for
every clock.

Modules, one per source file, plus shared helpers:
- `Wrappers`: `Option` and `Result`.
- `Text`: the JavaScript `trim`, `toLowerCase`, `join`, `startsWith` and
  decimal rendering.
- `Uri`: `encodeURIComponent` and percent-decoding.
- `Ids`: `<prefix>-<time>-<index>` ids.
- `Dedup`: generic first-occurrence deduplication.
- `Types`.
- One module per source file: `Aggregation`, `HomeScreen`, `GeminiService`,
  `ImageUploader`, `IngredientEditor`, `RecipeSuggestions`, `RecipeImage`,
  `RecipeCard`, `RecipeDetailView`.

## Model

| member | source | states |
|---|---|---|
| Types.Merge | app/index.tsx:125-127 | `{...prev, ...update}`: each key in the update replaces the previous value, and every absent key keeps its old value |
| Text.Trim | components/IngredientEditor.tsx:37 | `trim` returns a string with no whitespace at either end. It is empty exactly when the input is all whitespace, which is the blank-name guard |
| Text.TrimIgnoresPadding | services/geminiService.ts:49 | whitespace added around a response does not change what `text.trim()` yields |
| Text.TrimIdempotent | services/geminiService.ts:49 | trimming twice is trimming once |
| Text.NatToStringInjective | app/index.tsx:60 | distinct numbers render as distinct decimal strings, so ids built from them differ |
| Ids.MakeIdInjective | app/index.tsx:58-61 | an id `<prefix>-<time>-<index>` determines both its time and its index |
| Ids.FreshIds | app/index.tsx:58-61 | the ids for indices 0..n-1 start with the prefix, end with their index and are pairwise distinct, whatever the clock returns |
| Ids.AssignIngredientIds | app/index.tsx:58-61 | relabelling keeps length, order and all other fields. The new ids are pairwise distinct, whatever the clock returns |
| Ids.AssignRecipeIds | app/index.tsx:88-91 | the same for recipes: only the id changes, and ids are pairwise distinct |
| Dedup.DedupBy | app/index.tsx:47-56 | the result keeps only wanted entries, with one entry per key. Its key set is the key set of the wanted input entries, and each result entry comes from the input |
| Dedup.DedupIsFirstOccurrences | app/index.tsx:51-53 | deduplication equals the reference definition: for each key, its first occurrence, in input order |
| Dedup.DedupIdempotent | app/index.tsx:47-56 | deduplicating the output again changes nothing |
| Dedup.DedupOfDistinct | app/index.tsx:47-56 | a list of wanted entries with distinct keys is its own deduplication |
| Aggregation.DedupIngredients | app/index.tsx:47-56 | entries without a name are dropped. One entry remains per `name.toLowerCase().trim()`, covering every normalised name that occurs |
| Aggregation.DedupIngredientsKeepsFirst | app/index.tsx:51-53 | the entry kept for a name is its first occurrence across the concatenated lists |
| Aggregation.DedupIngredientsIdempotent | app/index.tsx:47-56 | the deduplicated list deduplicates to itself |
| Aggregation.SettleAll | app/index.tsx:41-43 | `Promise.all`: it fails exactly when some image failed, and otherwise gives every per-image list in image order |
| Aggregation.AggregateIngredients | app/index.tsx:41-61 | it fails iff some image failed. Otherwise the ingredients keep their content and distinct normalised names, and every name found is covered. Each id is `ing-<t>-<i>` for its index i, and the ids are pairwise distinct |
| Dedup.DedupWithMap | app/index.tsx:47-56 | the source's loop, with a map from key to entry and an insertion-ordered list, produces exactly the first occurrence of each key. The map's keys are the kept keys, and it maps each kept key to the kept entry |
| Aggregation.DedupIngredientsWithMap | app/index.tsx:47-56 | the loop over ingredients keeps exactly the first occurrence of each normalised name and covers every name found |
| Aggregation.NamelessIgnored | app/index.tsx:49 | entries without a name never affect the result: deduplicating only the named entries gives the same list |
| Aggregation.Key | app/index.tsx:50 | the key `name.toLowerCase().trim()` has no whitespace at either end, and is empty exactly when the name is all whitespace |
| Aggregation.KeyIgnoresPadding | app/index.tsx:50 | names that differ only by surrounding whitespace get the same key, so they are merged |
| Aggregation.KeyIgnoresCase | app/index.tsx:50 | a name and its lower-cased form get the same key, so they are merged |
| Aggregation.Flatten | app/index.tsx:44 | `flat()` keeps every entry of every per-image list and adds none |
| Aggregation.FlattenAppend | app/index.tsx:44 | flattening the lists of two groups of images is flattening each group and concatenating |
| GeminiService.ImagePayload | services/geminiService.ts:39 | `split(',')[1]` is undefined exactly when there is no comma, and otherwise contains no comma |
| GeminiService.ImagePayloadOfSegments | services/geminiService.ts:39 | the payload is the segment between the first and second commas, whatever follows |
| GeminiService.VisionRequestFor | services/geminiService.ts:37-42 | the image part is JPEG. It has data exactly when the data URL has a comma, and the data never contains a comma |
| ImageUploader.PreviewRequestCarriesData | services/geminiService.ts:37-42 | the request built for a preview carries exactly the picked base64 data |
| GeminiService.IdentifyIngredientsFromImage | services/geminiService.ts:13-62 | the call fails iff the model call fails, with the fixed message. Unparsable text gives `[]`. Parsed items keep their fields, and their ids are `ai-<t>-<i>` for index i and pairwise distinct |
| GeminiService.IngredientsListSnoc | services/geminiService.ts:68 | the ingredient list renders `name (quantity)` items in order, separated by `, ` |
| GeminiService.PhraseTablesRoundTrip | services/geminiService.ts:70-80 | the time and goal tables are one-to-one, and their inverses read each option back |
| GeminiService.DietsPhrase | services/geminiService.ts:88 | with no diets, or only an empty one, the phrase is `ninguna`; otherwise it is the comma-joined list |
| GeminiService.EffectiveServings | services/geminiService.ts:89 | an absent or zero serving count becomes 4, and any other value is kept |
| GeminiService.RecipePromptFor | services/geminiService.ts:66-89 | the ingredients field is the rendered ingredient list and the diets field the diet phrase. The time and goal phrases read back as the chosen options, and the servings field renders the effective count |
| GeminiService.PromptDeterminesPreferences | services/geminiService.ts:82-89 | equal prompts imply equal time, goal and effective servings |
| GeminiService.ExamplePrompt | services/geminiService.ts:82-89 | for quick, hearty, one vegan diet and two servings, the prompt shows the literal phrases and values |
| GeminiService.SuggestRecipes | services/geminiService.ts:64-141 | the call fails iff the model call fails, with the fixed message. Unparsable text gives `[]`. Recipes keep their content in service order, and their ids are `recipe-<t>-<i>` for index i and pairwise distinct |
| GeminiService.SuggestRecipesIgnoresPadding | services/geminiService.ts:129 | whitespace around the response text does not change the result |
| RecipeSuggestions.PreferenceChange | components/RecipeSuggestions.tsx:30-35 | the update has exactly one key, and merging it sets that field and only that field |
| RecipeSuggestions.Without | components/RecipeSuggestions.tsx:39 | the filter removes the diet and keeps exactly the other diets |
| RecipeSuggestions.ToggleDiet | components/RecipeSuggestions.tsx:37-41 | after the toggle the diet is present iff it was absent. An absent diet is appended at the end, and the other diets are unchanged |
| RecipeSuggestions.ToggleTwiceRestores | components/RecipeSuggestions.tsx:37-41 | toggling an absent diet on and then off restores the original list |
| RecipeSuggestions.DietChange | components/RecipeSuggestions.tsx:37-42 | only the diet list changes: it becomes the toggled list, so the diet's membership flips and the other diets stay in order |
| RecipeSuggestions.DecreaseServings | components/RecipeSuggestions.tsx:44-49 | an update is emitted iff the count is above 1, and it lowers the count by one |
| RecipeSuggestions.IncreaseServings | components/RecipeSuggestions.tsx:51-54 | a set count goes up by one, and an absent or zero count becomes 1 |
| RecipeSuggestions.ServingsStayPositive | components/RecipeSuggestions.tsx:44-54 | from one serving or more, any sequence of minus and plus presses keeps at least one serving and changes no other preference |
| RecipeSuggestions.IncreaseFromAbsent | components/RecipeSuggestions.tsx:51-54 | with no servings set, the service uses 4 but the first "+" stores 1 |
| IngredientEditor.FillIds | components/IngredientEditor.tsx:29-34 | existing ids are kept and no other field changes. An empty id at index i becomes `init-<t>-<i>`, so every id ends up non-empty and the filled ids are pairwise distinct whatever the clock returns |
| IngredientEditor.TrimJoinedFields | components/IngredientEditor.tsx:39 | trimming the two trimmed fields joined by a space drops the space when either field is empty |
| IngredientEditor.FullQuantity | components/IngredientEditor.tsx:39-43 | the result is `quantity unit`, or just the non-blank one of them, or `1 unidad` when both are blank |
| IngredientEditor.AddIngredient | components/IngredientEditor.tsx:36-50 | a blank name changes nothing. Otherwise one ingredient with the trimmed name and the id `manual-<t>-<suffix>` is appended, and the form returns to its initial values |
| IngredientEditor.RemoveIngredient | components/IngredientEditor.tsx:52-54 | exactly the rows with other ids remain, each with its multiplicity |
| IngredientEditor.RemoveAppend | components/IngredientEditor.tsx:52-54 | removal distributes over concatenation |
| IngredientEditor.RemoveUndoesAdd | components/IngredientEditor.tsx:36-54 | removing a just-added ingredient whose id is new restores the list |
| Ids.ManualId | components/IngredientEditor.tsx:41 | a manual id always starts with `manual-` |
| Ids.GeneratedIdIsNotManual | components/IngredientEditor.tsx:41 | an id with a generated prefix (`init`, `ing`, `ai`, `rec`) is never a manual id |
| IngredientEditor.FilledIdsAreNotManual | components/IngredientEditor.tsx:29-34 | the rows the editor starts with, holding `ing-` ids or filled `init-` ids, never hold a manual id |
| IngredientEditor.RemoveUndoesAddAmongGenerated | components/IngredientEditor.tsx:36-54 | added to rows without manual ids, a new row always has a fresh id, so removing it restores the list |
| IngredientEditor.UpdateIngredient | components/IngredientEditor.tsx:56-60 | only the chosen field of rows with the id changes. Length, order, ids and all other rows are kept |
| IngredientEditor.RemoveAfterUpdate | components/IngredientEditor.tsx:52-60 | editing a row and then removing it is the same as removing it directly |
| IngredientEditor.UpdateLastWins | components/IngredientEditor.tsx:56-60 | of two edits of the same field of the same rows, the last one wins |
| IngredientEditor.FillIdsIdempotent | components/IngredientEditor.tsx:29-34 | filling ids a second time changes nothing |
| IngredientEditor.CanConfirmAfterEdits | components/IngredientEditor.tsx:189-191 | the confirm button (`disabled` while loading or with no rows): adding a named ingredient while idle enables it, removing a row can only disable it, and removing the only row does |
| ImageUploader.DataUrl | components/ImageUploader.tsx:54 | every preview is a JPEG base64 data URL |
| ImageUploader.PayloadOfDataUrl | components/ImageUploader.tsx:54 | the service's payload extraction recovers the base64 data of a preview |
| ImageUploader.DataUrls | components/ImageUploader.tsx:80-85 | every asset with data yields exactly one data URL, so there are as many URLs as assets with data |
| ImageUploader.PayloadsOfDataUrls | components/ImageUploader.tsx:80-85 | the payloads of the new previews are exactly the assets' base64 data, in asset order |
| ImageUploader.TakePhoto | components/ImageUploader.tsx:37-62 | without permission nothing changes. Otherwise the error is cleared, or set on a picker failure. At most one preview is appended, exactly when the first asset has data, and it is that asset's data URL. Existing previews are kept |
| ImageUploader.PickImages | components/ImageUploader.tsx:64-93 | without permission nothing changes. Otherwise the error is cleared, or set on a failure, and the previews of every asset with data are appended in order |
| ImageUploader.RemovePreview | components/ImageUploader.tsx:95-97 | exactly the element at the index is removed. An index out of range changes nothing |
| ImageUploader.SubmitImages | components/ImageUploader.tsx:99-106 | a submit uploads iff there are previews, and then the whole list is uploaded and processing starts. Otherwise the error is set |
| ImageUploader.SubmitDisablesActions | components/ImageUploader.tsx:108 | the camera and gallery buttons are disabled while processing or while the app loads. A submit that uploads disables them whatever the app's flag, and one that does not leaves them as they were |
| ImageUploader.SubmitDisabledIffNoUpload | components/ImageUploader.tsx:177 | the submit button is disabled exactly when the other buttons are, or when pressing it would only report the no-image error |
| ImageUploader.EnabledSubmitUploads | components/ImageUploader.tsx:99-106 | an enabled submit always uploads the whole preview list, and afterwards every button is disabled |
| HomeScreen.SetView | app/index.tsx:129-136 | moving to the home view from another view clears images, ingredients, recipes and the selection. Any other move changes only the view |
| HomeScreen.SelectRecipe | app/index.tsx:105-108 | the recipe is selected and the detail view opens; nothing else changes |
| HomeScreen.BackUndoesSelect | app/index.tsx:105-116 | back from a recipe opened on the suggestions view returns to that view with its data, the error cleared |
| HomeScreen.Back | app/index.tsx:110-123 | back clears the error and steps one view back (detail to suggestions to editor to home), discarding what the left view showed |
| HomeScreen.LogoClick | app/index.tsx:184 | the logo leads home. From another view it clears the data and keeps loading, error and preferences; on the home view nothing changes |
| HomeScreen.PreferencesChange | app/index.tsx:125-127 | the update is merged into the preferences, nothing else changes, and an empty update changes nothing |
| HomeScreen.RenderFallback | app/index.tsx:169-174 | the detail view without a selected recipe switches to the suggestions view and changes nothing else. Every other state is left as it is, so the detail view never shows without a recipe |
| HomeScreen.BeginImageUpload | app/index.tsx:34-38 | the upload clears the error, stores the images, starts loading and opens the editor view |
| HomeScreen.FinishImageUpload | app/index.tsx:40-72 | there is one outcome per image, as `Promise.all` over the images gives. Loading ends. Any failure empties the list and sets the failure message. Otherwise the aggregated list is stored, with a message when images were given but nothing was found. No other field changes |
| HomeScreen.NoImagesFindNothing | app/index.tsx:40-72 | with no images there is one outcome per image, so none: the list is empty and no message is set |
| HomeScreen.BeginConfirm | app/index.tsx:75-84 | an empty list only sets an error. Otherwise the list is stored, the error cleared, loading starts and the suggestions view opens |
| HomeScreen.EnabledConfirmStartsRequest | app/index.tsx:75-84 | when the editor's confirm button is enabled, confirming starts the recipe request rather than reporting an empty list |
| HomeScreen.FinishConfirm | app/index.tsx:86-102 | loading ends. A failure empties the recipes and sets the failure message. Otherwise the recipes keep their content, their ids become `rec-<t>-<i>` for index i and are pairwise distinct, and a message is set when there are none. No other field changes |
| Uri.EncodeURIComponent | components/RecipeCard.tsx:19 | the output consists of unreserved characters and `%XX` escapes only: every `%` is followed by two upper-case hexadecimal digits, and unreserved text is left unchanged |
| Uri.DecodeEncode | components/RecipeCard.tsx:19 | percent-decoding inverts `encodeURIComponent` on ASCII text |
| RecipeImage.ImageUrl | components/RecipeCard.tsx:15-20 | the precedence: a usable `imageUrl`, then a search for a truthy `imageQuery`, then the fallback |
| RecipeImage.ImageUrlIsStable | components/RecipeDetailView.tsx:27-32 | with web search base and fallback, the chosen URL is itself usable, so storing it as `imageUrl` selects it again |
| RecipeImage.SearchUrlRecoversQuery | components/RecipeCard.tsx:19 | an ASCII query can be read back from the search URL |
| RecipeCard.CardImageUrl | components/RecipeCard.tsx:15-20 | the card picture follows the precedence with the 400x300 search and the card fallback, and is always a usable URL |
| RecipeCard.CardTags | components/RecipeCard.tsx:56-68 | at most the first three tags are shown, and they are a prefix of the tags. The `+N más` badge appears iff tags are hidden, and N counts the hidden tags |
| RecipeCard.TagsShownIffVisibleTags | components/RecipeCard.tsx:56-58 | the tags row appears exactly when it has at least one tag to show |
| RecipeDetailView.DetailImageUrl | components/RecipeDetailView.tsx:27-32 | the detail picture follows the precedence with the 800x600 search and the detail fallback, and is always a usable URL |
| RecipeDetailView.DescriptionShownIffTruthy | components/RecipeDetailView.tsx:74 | the description section follows JavaScript truthiness: hidden when empty, shown even when whitespace only |
| RecipeDetailView.TagsSectionMatchesCard | components/RecipeDetailView.tsx:101-108 | the detail view lists tags for exactly the recipes whose card shows tags, and the card's tags are the first of the detail's |
| RecipeDetailView.SubstitutionsShownIffLines | components/RecipeDetailView.tsx:165-173 | the substitutions section appears exactly when it has a `• original: suggestion` line to show |
| RecipeDetailView.NutritionLines | components/RecipeDetailView.tsx:141-160 | the grid lists calories, protein, carbs and fat in that order, each only when its value is truthy. Each line shows the value the record holds for its nutrient. There are at most four lines, none blank |
| RecipeDetailView.NutritionLinesPresence | components/RecipeDetailView.tsx:141-160 | a nutrient has a line iff its value is truthy |
| RecipeDetailView.CaptionShape | components/RecipeDetailView.tsx:141-160 | each nutrient caption is a colon-free word followed by one colon, which is what lets a rendered line be read back |
| RecipeDetailView.RenderedDeterminesLine | components/RecipeDetailView.tsx:141-160 | a rendered grid line determines its nutrient and its value |
| RecipeDetailView.NutritionShownIffLines | components/RecipeDetailView.tsx:134 | the nutrition section appears iff it has at least one line |
| RecipeDetailView.NumberedSteps | components/RecipeDetailView.tsx:123-128 | the steps keep their text and order and are numbered 1..n, with distinct numbers |

## Left out

- The model endpoint, the API key check and the fixed instruction text of both prompts: the endpoint is the `generate` parameter, and the model keeps only the variable parts of the prompts.
- `JSON.parse` and `.map` over its result: these are the `parse` parameter. `None` stands for text that does not parse, or for a value that is not an array; in the source both end in `[]`. Non-string values inside parsed items are not modelled, and a missing string property is `""`. The truthiness guards treat both alike (both are falsy), but rendering does not: an ingredient the model returns without `quantity` appears in the recipe prompt as `name (undefined)`, while GeminiService.IngredientsList gives `name ()`.
- Text.NatToString and Text.IntToString render unbounded integers exactly. JavaScript numbers are doubles: integers from 2^53 on are not all representable, numbers from 10^21 on render in exponent form (`1e+21`), and a fractional serving count renders with its decimals. Clock readings, indices, tag counts and serving counts are assumed to stay below these bounds.
- RecipeDetailView.NutritionShownIffLines: the source's test `Object.values(estimatedNutrition).some(val => val)` also sees keys beyond the four nutrients, or non-string values, when the parsed reply carries them. The record here has exactly the four optional strings, so the source can show an empty nutrition section that the model cannot.
- `Date.now()` is the `stamp` parameter. For manual ids the clock reading `t` and the suffix `Math.random().toString(36).substr(2, 9)` are parameters of IngredientEditor.AddIngredient. No uniqueness is claimed between two manual ids, since the source relies on randomness for that.
- Aggregation.Key: `toLowerCase` is modelled for ASCII and Latin-1 letters only. Other letters are left unchanged, so names that differ only in non-Latin-1 case count as different names.
- Uri.DecodeEncode: the round trip is proved for ASCII text only. Non-ASCII characters are encoded exactly, as UTF-8 escapes, but decoding them back is not modelled.
- React rendering, styles, layout, spinners, presentation-only components (header, footer, buttons, icons) and the colour constants.
- Permission prompts and alerts: the permission outcome is the `granted` input. The camera and gallery pickers are the `PickerResult` input. Console logging is dropped.
- Asynchrony: each asynchronous handler is split into a start and a completion that sees all results at once. Interleavings of overlapping requests, and which rejection `Promise.all` reports, are not modelled. The caller discards the rejection reason anyway.
- The static diet option list and the labels of the segmented controls: they only feed `ToggleDiet` and `PreferenceChange`.
- The recipe-ingredient and substitution rows of the detail view are shown verbatim and are not modelled beyond the record types.

=== FILE: aggregation.dfy ===
/** Ingredient aggregation after the per-image identifications settle
    (`handleImageUpload`, app/index.tsx): all-or-nothing join, concatenation
    in image order, deduplication by normalised name keeping the first
    occurrence, then fresh `ing-` ids. */
module Aggregation {
  import opened Wrappers
  import opened Text
  import opened Types
  import opened Ids
  import opened Dedup

  /** `ingredient && ingredient.name`: entries whose name is missing or empty are skipped. */
  predicate HasName(x: Ingredient) {
    x.name != ""
  }

  /** The deduplication key `name.toLowerCase().trim()`. */
  function Key(x: Ingredient): (k: string)
    ensures IsTrimmed(k)
    ensures k == [] <==> IsBlank(x.name)
  {
    ToLowerBlankIff(x.name);
    Trim(ToLower(x.name))
  }

  /** Lower-casing neither adds nor removes whitespace. */
  lemma ToLowerBlankIff(s: string)
    ensures IsBlank(ToLower(s)) <==> IsBlank(s)
  {
    if IsBlank(ToLower(s)) {
      forall i | 0 <= i < |s| ensures IsSpace(s[i]) {
        assert IsSpace(ToLower(s)[i]);
      }
    }
  }

  /** Names that differ only by surrounding whitespace share a key. */
  lemma KeyIgnoresPadding(x: Ingredient, a: string, b: string)
    requires IsBlank(a) && IsBlank(b)
    ensures Key(x.(name := a + x.name + b)) == Key(x)
  {
    ToLowerConcat(a + x.name, b);
    ToLowerConcat(a, x.name);
    ToLowerBlank(a);
    ToLowerBlank(b);
    TrimIgnoresPadding(a, ToLower(x.name), b);
  }

  /** Names that differ only in letter case share a key. */
  lemma KeyIgnoresCase(x: Ingredient)
    ensures Key(x.(name := ToLower(x.name))) == Key(x)
  {
    ToLowerIdempotent(x.name);
  }

  /** Lines 47-56: deduplication of the concatenated lists. */
  function DedupIngredients(xs: seq<Ingredient>): (r: seq<Ingredient>)
    ensures AllKept(r, HasName)
    ensures DistinctKeys(r, Key)
    ensures KeySet(r, Key) == KeptKeys(xs, HasName, Key)
    ensures forall i :: 0 <= i < |r| ==> r[i] in xs
  {
    DedupBy(xs, HasName, Key)
  }

  /** `xs.filter(HasName)`, taken from the back like the scan. */
  function Named(xs: seq<Ingredient>): (r: seq<Ingredient>)
    ensures AllKept(r, HasName)
    ensures forall x :: x in r <==> x in xs && HasName(x)
    decreases |xs|
  {
    if xs == [] then []
    else
      var init := xs[..|xs| - 1];
      var x := xs[|xs| - 1];
      assert xs == init + [x];
      if HasName(x) then Named(init) + [x] else Named(init)
  }

  /** Entries without a name never affect the result: deduplicating only
      the named entries gives the same list. */
  lemma {:induction false} NamelessIgnored(xs: seq<Ingredient>)
    ensures DedupIngredients(Named(xs)) == DedupIngredients(xs)
  {
    if xs != [] {
      var init := xs[..|xs| - 1];
      var x := xs[|xs| - 1];
      NamelessIgnored(init);
      if HasName(x) {
        var n := Named(init) + [x];
        assert n[..|n| - 1] == Named(init);
      }
    }
  }

  /** The kept entry for each name is its first occurrence, and entries come
      in the order of those first occurrences. */
  lemma DedupIngredientsKeepsFirst(xs: seq<Ingredient>)
    ensures DedupIngredients(xs) == FirstOccurrences(xs, |xs|, HasName, Key)
  {
    DedupIsFirstOccurrences(xs, HasName, Key);
  }

  /** Re-running deduplication on its own output changes nothing. */
  lemma DedupIngredientsIdempotent(xs: seq<Ingredient>)
    ensures DedupIngredients(DedupIngredients(xs)) == DedupIngredients(xs)
  {
    DedupIdempotent(xs, HasName, Key);
  }

  /** `Array.prototype.flat()` of the per-image lists. */
  function Flatten(lists: seq<seq<Ingredient>>): (r: seq<Ingredient>)
    ensures forall i, x :: 0 <= i < |lists| && x in lists[i] ==> x in r
    ensures forall x :: x in r ==> exists i :: 0 <= i < |lists| && x in lists[i]
  {
    if lists == [] then []
    else
      var rest := Flatten(lists[1..]);
      assert forall i, x :: 1 <= i < |lists| && x in lists[i] ==> x in lists[1..][i - 1];
      assert forall x :: x in rest ==> exists i :: 0 <= i < |lists| && x in lists[i] by {
        forall x | x in rest ensures exists i :: 0 <= i < |lists| && x in lists[i] {
          var j :| 0 <= j < |lists[1..]| && x in lists[1..][j];
          assert x in lists[j + 1];
        }
      }
      lists[0] + rest
  }

  /** Flattening distributes over concatenation of the per-image lists. */
  lemma {:induction false} FlattenAppend(a: seq<seq<Ingredient>>, b: seq<seq<Ingredient>>)
    ensures Flatten(a + b) == Flatten(a) + Flatten(b)
  {
    if a == [] {
      assert a + b == b;
    } else {
      assert (a + b)[1..] == a[1..] + b;
      FlattenAppend(a[1..], b);
    }
  }

  /** `Promise.all`: every per-image list in image order, or `None` when any
      identification failed (the rejection reason is discarded by the
      caller, which reports its own message). */
  function SettleAll<E>(outcomes: seq<Result<seq<Ingredient>, E>>): (r: Option<seq<seq<Ingredient>>>)
    ensures r.None? <==> exists i :: 0 <= i < |outcomes| && outcomes[i].Failure?
    ensures r.Some? ==>
      && |r.value| == |outcomes|
      && forall i :: 0 <= i < |outcomes| ==> r.value[i] == outcomes[i].value
  {
    if outcomes == [] then Some([])
    else match outcomes[0]
      case Failure(_) => None
      case Success(first) =>
        match SettleAll(outcomes[1..])
        case None => None
        case Some(rest) => Some([first] + rest)
  }

  /** Lines 41-61: `None` when any image failed, otherwise the deduplicated
      list of all images' entries with pairwise distinct `ing-<t>-<index>` ids. */
  function AggregateIngredients<E>(outcomes: seq<Result<seq<Ingredient>, E>>, stamp: nat -> nat): (r: Option<seq<Ingredient>>)
    ensures r.None? <==> exists i :: 0 <= i < |outcomes| && outcomes[i].Failure?
    ensures r.Some? ==>
      var unique := DedupIngredients(Flatten(SettleAll(outcomes).value));
      && |r.value| == |unique|
      && (forall i :: 0 <= i < |r.value| ==> r.value[i] == unique[i].(id := r.value[i].id))
      && DistinctKeys(r.value, Key)
      && KeySet(r.value, Key) == KeptKeys(Flatten(SettleAll(outcomes).value), HasName, Key)
      && (forall i, j :: 0 <= i < j < |r.value| ==> r.value[i].id != r.value[j].id)
      && (forall i :: 0 <= i < |r.value| ==> StartsWith(r.value[i].id, "ing-") && IdEndsWithIndex(r.value[i].id, i))
  {
    match SettleAll(outcomes)
    case None => None
    case Some(lists) =>
      var unique := DedupIngredients(Flatten(lists));
      assert "ing" + "-" == "ing-";
      var named := AssignIngredientIds(unique, "ing", stamp);
      assert forall i :: 0 <= i < |named| ==> named[i].name == unique[i].name;
      SameKeys(named, unique, Key);
      Some(named)
  }

  /** The deduplication loop as the source runs it: a `Map` from
      normalised name to entry answers `has`, and `Array.from(map.values())`
      returns the entries in insertion order. */
  method DedupIngredientsWithMap(aggregated: seq<Ingredient>) returns (unique: seq<Ingredient>)
    ensures unique == FirstOccurrences(aggregated, |aggregated|, HasName, Key)
    ensures DistinctKeys(unique, Key) && KeySet(unique, Key) == KeptKeys(aggregated, HasName, Key)
  {
    var seen;
    unique, seen := DedupWithMap(aggregated, HasName, Key);
  }
}

=== FILE: dedup.dfy ===
/** Deduplication by key, keeping the first occurrence: the shape of the
    "insertion-ordered Map, set only if absent" idiom. The entries that take
    part are those satisfying `keep`; the key function is arbitrary. */
module Dedup {

  function KeySet<T, K>(xs: seq<T>, key: T -> K): set<K> {
    set i | 0 <= i < |xs| :: key(xs[i])
  }

  /** Keys of the entries that take part in deduplication. */
  function KeptKeys<T, K>(xs: seq<T>, keep: T -> bool, key: T -> K): set<K> {
    set i | 0 <= i < |xs| && keep(xs[i]) :: key(xs[i])
  }

  predicate AllKept<T>(xs: seq<T>, keep: T -> bool) {
    forall i :: 0 <= i < |xs| ==> keep(xs[i])
  }

  predicate DistinctKeys<T, K(==)>(xs: seq<T>, key: T -> K) {
    forall i, j :: 0 <= i < j < |xs| ==> key(xs[i]) != key(xs[j])
  }

  /** Two lists whose entries agree position by position on their keys have
      the same key set, and one has distinct keys iff the other does. */
  lemma SameKeys<T, K>(xs: seq<T>, ys: seq<T>, key: T -> K)
    requires |xs| == |ys|
    requires forall i :: 0 <= i < |xs| ==> key(xs[i]) == key(ys[i])
    ensures KeySet(xs, key) == KeySet(ys, key)
    ensures DistinctKeys(xs, key) <==> DistinctKeys(ys, key)
  {
    forall k | k in KeySet(xs, key) ensures k in KeySet(ys, key) {
      var i :| 0 <= i < |xs| && key(xs[i]) == k;
      assert key(ys[i]) == k;
    }
  }

  lemma KeySetSnoc<T, K>(xs: seq<T>, x: T, key: T -> K)
    ensures KeySet(xs + [x], key) == KeySet(xs, key) + {key(x)}
  {
    var u := xs + [x];
    forall k | k in KeySet(u, key) ensures k in KeySet(xs, key) + {key(x)} {
      var j :| 0 <= j < |u| && key(u[j]) == k;
      if j < |xs| { assert u[j] == xs[j]; }
    }
    forall k | k in KeySet(xs, key) ensures k in KeySet(u, key) {
      var j :| 0 <= j < |xs| && key(xs[j]) == k;
      assert u[j] == xs[j];
    }
    assert u[|xs|] == x;
  }

  lemma KeptKeysSnoc<T, K>(xs: seq<T>, x: T, keep: T -> bool, key: T -> K)
    ensures KeptKeys(xs + [x], keep, key)
         == KeptKeys(xs, keep, key) + (if keep(x) then {key(x)} else {})
  {
    var u := xs + [x];
    forall k | k in KeptKeys(u, keep, key)
      ensures k in KeptKeys(xs, keep, key) || (keep(x) && k == key(x))
    {
      var j :| 0 <= j < |u| && keep(u[j]) && key(u[j]) == k;
      if j < |xs| { assert u[j] == xs[j]; }
    }
    forall k | k in KeptKeys(xs, keep, key) ensures k in KeptKeys(u, keep, key) {
      var j :| 0 <= j < |xs| && keep(xs[j]) && key(xs[j]) == k;
      assert u[j] == xs[j];
    }
    assert u[|xs|] == x;
  }

  /** Left-to-right scan: an entry is appended when it takes part and its
      key has not been seen yet. */
  function DedupBy<T(==), K(==)>(xs: seq<T>, keep: T -> bool, key: T -> K): (r: seq<T>)
    ensures AllKept(r, keep)
    ensures DistinctKeys(r, key)
    ensures KeySet(r, key) == KeptKeys(xs, keep, key)
    ensures forall i :: 0 <= i < |r| ==> r[i] in xs
    ensures |r| <= |xs|
    decreases |xs|
  {
    if xs == [] then []
    else
      var init := xs[..|xs| - 1];
      var acc := DedupBy(init, keep, key);
      var x := xs[|xs| - 1];
      assert xs == init + [x];
      KeptKeysSnoc(init, x, keep, key);
      if keep(x) && key(x) !in KeySet(acc, key) then
        KeySetSnoc(acc, x, key);
        acc + [x]
      else acc
  }

  /** `xs[i]` takes part and no earlier participating entry has its key. */
  predicate IsFirstOccurrence<T, K(==)>(xs: seq<T>, i: nat, keep: T -> bool, key: T -> K)
    requires i < |xs|
  {
    keep(xs[i]) && forall k :: 0 <= k < i && keep(xs[k]) ==> key(xs[k]) != key(xs[i])
  }

  /** Reference definition: among the first `n` entries, those that are first
      occurrences of their key, in input order. */
  function FirstOccurrences<T, K(==)>(xs: seq<T>, n: nat, keep: T -> bool, key: T -> K): seq<T>
    requires n <= |xs|
  {
    if n == 0 then []
    else
      var tail := if IsFirstOccurrence(xs, n - 1, keep, key) then [xs[n - 1]] else [];
      FirstOccurrences(xs, n - 1, keep, key) + tail
  }

  /** Entry `i` is a first occurrence iff it takes part and its key is not
      among the participating keys before it. */
  lemma FirstOccurrenceIff<T, K>(xs: seq<T>, i: nat, keep: T -> bool, key: T -> K)
    requires i < |xs|
    ensures IsFirstOccurrence(xs, i, keep, key)
        <==> keep(xs[i]) && key(xs[i]) !in KeptKeys(xs[..i], keep, key)
  {
    var init := xs[..i];
    if key(xs[i]) in KeptKeys(init, keep, key) {
      var k :| 0 <= k < i && keep(init[k]) && key(init[k]) == key(xs[i]);
      assert xs[k] == init[k];
    }
    forall k | 0 <= k < i && keep(xs[k]) ensures key(xs[k]) in KeptKeys(init, keep, key) {
      assert init[k] == xs[k];
    }
  }

  /** One step of the scan, on the prefix of length `n`. */
  lemma DedupStep<T, K>(xs: seq<T>, n: nat, keep: T -> bool, key: T -> K)
    requires 0 < n <= |xs|
    ensures var acc := DedupBy(xs[..n - 1], keep, key);
      DedupBy(xs[..n], keep, key)
        == if keep(xs[n - 1]) && key(xs[n - 1]) !in KeySet(acc, key) then acc + [xs[n - 1]] else acc
  {
    var p := xs[..n];
    assert p[..|p| - 1] == xs[..n - 1];
    assert p[|p| - 1] == xs[n - 1];
  }

  lemma {:induction false} DedupPrefix<T, K>(xs: seq<T>, n: nat, keep: T -> bool, key: T -> K)
    requires n <= |xs|
    ensures DedupBy(xs[..n], keep, key) == FirstOccurrences(xs, n, keep, key)
  {
    if n > 0 {
      var acc := DedupBy(xs[..n - 1], keep, key);
      var x := xs[n - 1];
      var first := IsFirstOccurrence(xs, n - 1, keep, key);
      assert DedupBy(xs[..n], keep, key) == if first then acc + [x] else acc by {
        DedupStep(xs, n, keep, key);
        FirstOccurrenceIff(xs, n - 1, keep, key);
        assert KeySet(acc, key) == KeptKeys(xs[..n - 1], keep, key);
      }
      assert FirstOccurrences(xs, n, keep, key)
          == FirstOccurrences(xs, n - 1, keep, key) + (if first then [x] else []);
      DedupPrefix(xs, n - 1, keep, key);
    }
  }

  /** The scan keeps exactly the first occurrences, in input order. */
  lemma DedupIsFirstOccurrences<T, K>(xs: seq<T>, keep: T -> bool, key: T -> K)
    ensures DedupBy(xs, keep, key) == FirstOccurrences(xs, |xs|, keep, key)
  {
    DedupPrefix(xs, |xs|, keep, key);
    assert xs[..|xs|] == xs;
  }

  /** In a list with distinct keys, the last key is not among the earlier
      ones, and the earlier entries still have distinct keys. */
  lemma LastKeyFresh<T, K>(ys: seq<T>, key: T -> K)
    requires ys != [] && DistinctKeys(ys, key)
    ensures key(ys[|ys| - 1]) !in KeySet(ys[..|ys| - 1], key)
    ensures DistinctKeys(ys[..|ys| - 1], key)
  {
    var init := ys[..|ys| - 1];
    forall i | 0 <= i < |init| ensures key(init[i]) != key(ys[|ys| - 1]) {
      assert init[i] == ys[i];
    }
  }

  /** An already deduplicated list passes through unchanged. */
  lemma {:induction false} DedupOfDistinct<T, K>(ys: seq<T>, keep: T -> bool, key: T -> K)
    requires AllKept(ys, keep) && DistinctKeys(ys, key)
    ensures DedupBy(ys, keep, key) == ys
    decreases |ys|
  {
    if ys != [] {
      var init := ys[..|ys| - 1];
      var x := ys[|ys| - 1];
      DedupOfDistinct(init, keep, key);
      LastKeyFresh(ys, key);
      assert init + [x] == ys;
    }
  }

  /** Deduplication is idempotent. */
  lemma DedupIdempotent<T, K>(xs: seq<T>, keep: T -> bool, key: T -> K)
    ensures DedupBy(DedupBy(xs, keep, key), keep, key) == DedupBy(xs, keep, key)
  {
    DedupOfDistinct(DedupBy(xs, keep, key), keep, key);
  }

  /** Each listed entry is the map's value for its key. */
  ghost predicate MapsEntries<T, K>(seen: map<K, T>, unique: seq<T>, key: T -> K) {
    forall j :: 0 <= j < |unique| ==> key(unique[j]) in seen && seen[key(unique[j])] == unique[j]
  }

  lemma MapsEntriesSnoc<T, K>(seen: map<K, T>, unique: seq<T>, x: T, key: T -> K)
    requires MapsEntries(seen, unique, key) && key(x) !in seen
    ensures MapsEntries(seen[key(x) := x], unique + [x], key)
  {
    var u := unique + [x];
    forall j | 0 <= j < |u| ensures key(u[j]) in seen[key(x) := x] && seen[key(x) := x][key(u[j])] == u[j] {
      if j < |unique| {
        assert u[j] == unique[j];
      }
    }
  }

  /** The insertion-ordered map idiom: a map from key to entry answers
      "seen before?", and a list keeps the entries in insertion order. The
      result is the deduplication, the map's keys are its keys, and the map
      holds each listed entry under its key. */
  method DedupWithMap<T(==), K(==)>(xs: seq<T>, keep: T -> bool, key: T -> K)
    returns (unique: seq<T>, seen: map<K, T>)
    ensures unique == FirstOccurrences(xs, |xs|, keep, key)
    ensures seen.Keys == KeySet(unique, key) == KeptKeys(xs, keep, key)
    ensures DistinctKeys(unique, key) && AllKept(unique, keep)
    ensures forall i :: 0 <= i < |unique| ==> key(unique[i]) in seen && seen[key(unique[i])] == unique[i]
  {
    seen := map[];
    unique := [];
    for i := 0 to |xs|
      invariant unique == DedupBy(xs[..i], keep, key)
      invariant seen.Keys == KeySet(unique, key)
      invariant MapsEntries(seen, unique, key)
    {
      var x := xs[i];
      DedupStep(xs, i + 1, keep, key);
      assert xs[..i + 1][..i] == xs[..i];
      if keep(x) {
        var k := key(x);
        if k !in seen {
          MapsEntriesSnoc(seen, unique, x, key);
          KeySetSnoc(unique, x, key);
          seen := seen[k := x];
          unique := unique + [x];
        }
      }
    }
    assert xs[..|xs|] == xs;
    DedupIsFirstOccurrences(xs, keep, key);
  }
}

=== FILE: gemini_service.dfy ===
/** The pure parts of the two model calls (services/geminiService.ts):
    request building, the image payload extraction, and the result policy
    (call failure raises a fixed error, unparsable text gives an empty list,
    parsed items get index-based ids). The model endpoint and `JSON.parse`
    are parameters: `generate` answers a request, `parse` reads trimmed
    response text as a list of items or fails. */
module GeminiService {
  import opened Wrappers
  import opened Text
  import opened Types
  import opened Ids

  /** Outcome of one `generateContent` call: the response text, or a failure
      of the call itself (network, service or response errors). */
  datatype Reply = Answered(text: string) | CallFailed

  const IdentifyError := "Error al identificar ingredientes. Inténtalo de nuevo."
  const SuggestError := "Error al generar recetas. Inténtalo de nuevo."

  // ---------------------------------------------------------------------
  // Image payload
  // ---------------------------------------------------------------------

  /** `dataUrl.split(',')[1]`: the text between the first and the second
      comma (or the end), `None` (`undefined`) when there is no comma. */
  function ImagePayload(dataUrl: string): (r: Option<string>)
    ensures r.None? <==> ',' !in dataUrl
    ensures r.Some? ==> ',' !in r.value
  {
    if ',' !in dataUrl then None
    else
      var rest := dataUrl[FirstIndexOf(dataUrl, ',') + 1..];
      if ',' in rest then
        var field := rest[..FirstIndexOf(rest, ',')];
        assert ',' !in field by {
          FirstIndexIsFirst(rest, ',');
        }
        Some(field)
      else Some(rest)
  }

  lemma {:induction false} FirstIndexIsFirst(s: string, c: char)
    requires c in s
    ensures c !in s[..FirstIndexOf(s, c)]
  {
    if s[0] != c {
      FirstIndexIsFirst(s[1..], c);
      assert s[..FirstIndexOf(s, c)] == [s[0]] + s[1..][..FirstIndexOf(s[1..], c)];
    }
  }

  /** The payload is exactly the comma-free segment after the first comma,
      whatever follows a second comma. */
  lemma ImagePayloadOfSegments(head: string, payload: string, tail: string)
    requires ',' !in head && ',' !in payload
    requires tail == [] || tail[0] == ','
    ensures ImagePayload(head + [','] + payload + tail) == Some(payload)
  {
    var s := head + [','] + payload + tail;
    FirstIndexAfter(head, payload + tail, ',');
    assert s == head + [','] + (payload + tail);
    var rest := s[|head| + 1..];
    assert rest == payload + tail;
    assert FirstIndexOf(s, ',') == |head|;
    if tail == [] {
      assert ',' !in rest;
      assert rest == payload;
      assert ImagePayload(s) == Some(payload);
    } else {
      assert tail == [','] + tail[1..];
      assert rest == payload + [','] + tail[1..];
      FirstIndexAfter(payload, tail[1..], ',');
      assert rest[..|payload|] == payload;
    }
  }

  /** The request of `identifyIngredientsFromImage`: the fixed instruction
      (not modelled) plus the inline image part. */
  datatype VisionRequest = VisionRequest(data: Option<string>, mimeType: string)

  function VisionRequestFor(image: string): (r: VisionRequest)
    ensures r.mimeType == "image/jpeg"
    ensures r.data.Some? <==> ',' in image
    ensures r.data.Some? ==> ',' !in r.data.value
  {
    VisionRequest(ImagePayload(image), "image/jpeg")
  }

  // ---------------------------------------------------------------------
  // Result policy
  // ---------------------------------------------------------------------

  /** `identifyIngredientsFromImage`: a failed call raises the fixed error; an
      answer that does not parse as an array gives `[]`; otherwise every
      parsed item keeps its fields and gains an id ending in its index. */
  function IdentifyIngredientsFromImage(
    image: string,
    generate: VisionRequest -> Reply,
    parse: string -> Option<seq<Ingredient>>,
    stamp: nat -> nat): (r: Result<seq<Ingredient>, string>)
    ensures generate(VisionRequestFor(image)).CallFailed? <==> r.Failure?
    ensures r.Failure? ==> r.error == IdentifyError
    ensures r.Success? ==>
      match parse(Trim(generate(VisionRequestFor(image)).text))
      case None => r.value == []
      case Some(items) =>
        && |r.value| == |items|
        && (forall i :: 0 <= i < |items| ==> r.value[i] == items[i].(id := r.value[i].id))
        && (forall i :: 0 <= i < |items| ==> StartsWith(r.value[i].id, "ai-") && IdEndsWithIndex(r.value[i].id, i))
        && (forall i, j :: 0 <= i < j < |items| ==> r.value[i].id != r.value[j].id)
  {
    match generate(VisionRequestFor(image))
    case CallFailed => Failure(IdentifyError)
    case Answered(text) =>
      match parse(Trim(text))
      case None => Success([])
      case Some(items) =>
        assert "ai" + "-" == "ai-";
        var named := AssignIngredientIds(items, "ai", stamp);
        Success(named)
  }

  // ---------------------------------------------------------------------
  // Recipe request
  // ---------------------------------------------------------------------

  /** One entry of the ingredient list: `${name} (${quantity})`. */
  function IngredientItem(ing: Ingredient): string {
    ing.name + " (" + ing.quantity + ")"
  }

  /** `ingredients.map(...).join(', ')`. */
  function IngredientsList(ings: seq<Ingredient>): string {
    Join(seq(|ings|, i requires 0 <= i < |ings| => IngredientItem(ings[i])), ", ")
  }

  /** The list is rendered item by item in input order: an empty list
      renders as nothing, one more ingredient adds `, ` and its item. */
  lemma IngredientsListSnoc(ings: seq<Ingredient>, x: Ingredient)
    ensures IngredientsList([]) == ""
    ensures IngredientsList([x]) == IngredientItem(x)
    ensures ings != [] ==> IngredientsList(ings + [x]) == IngredientsList(ings) + ", " + IngredientItem(x)
  {
    var items := seq(|ings|, i requires 0 <= i < |ings| => IngredientItem(ings[i]));
    var all := ings + [x];
    var items' := seq(|all|, i requires 0 <= i < |all| => IngredientItem(all[i]));
    assert items' == items + [IngredientItem(x)];
    assert seq(1, i requires 0 <= i < 1 => IngredientItem([x][i])) == [IngredientItem(x)];
    if ings != [] {
      JoinSnoc(items, IngredientItem(x), ", ");
    }
  }

  /** `timeMap`: total over the three time options. */
  function TimePhrase(t: TimeAvailable): string {
    match t
    case Quick => "menos de 30 minutos"
    case Normal => "30-60 minutos"
    case Advanced => "sin límite de tiempo"
  }

  /** `goalMap`: total over the three goals. */
  function GoalPhrase(g: DietaryGoal): string {
    match g
    case Light => "comida ligera y saludable"
    case Hearty => "comida contundente y satisfactoria"
    case UseLeftovers => "aprovechar sobras y evitar desperdicios"
  }

  /** Reading a time phrase back: the inverse table. */
  function TimeFromPhrase(p: string): (r: Option<TimeAvailable>)
    ensures r.Some? ==> TimePhrase(r.value) == p
  {
    if p == TimePhrase(Quick) then Some(Quick)
    else if p == TimePhrase(Normal) then Some(Normal)
    else if p == TimePhrase(Advanced) then Some(Advanced)
    else None
  }

  /** Reading a goal phrase back: the inverse table. */
  function GoalFromPhrase(p: string): (r: Option<DietaryGoal>)
    ensures r.Some? ==> GoalPhrase(r.value) == p
  {
    if p == GoalPhrase(Light) then Some(Light)
    else if p == GoalPhrase(Hearty) then Some(Hearty)
    else if p == GoalPhrase(UseLeftovers) then Some(UseLeftovers)
    else None
  }

  /** The tables are one-to-one: the prompt determines the option chosen. */
  lemma PhraseTablesRoundTrip(t: TimeAvailable, g: DietaryGoal)
    ensures TimeFromPhrase(TimePhrase(t)) == Some(t)
    ensures GoalFromPhrase(GoalPhrase(g)) == Some(g)
  {
    TimeRoundTrip(t);
    GoalRoundTrip(g);
  }

  lemma TimeRoundTrip(t: TimeAvailable)
    ensures TimeFromPhrase(TimePhrase(t)) == Some(t)
  {
    assert |TimePhrase(Quick)| == 19;
    assert |TimePhrase(Normal)| == 13;
    assert |TimePhrase(Advanced)| == 20;
  }

  lemma GoalRoundTrip(g: DietaryGoal)
    ensures GoalFromPhrase(GoalPhrase(g)) == Some(g)
  {
    assert |GoalPhrase(Light)| == 25;
    assert |GoalPhrase(Hearty)| == 34;
    assert |GoalPhrase(UseLeftovers)| == 39;
  }

  const NoDietsPhrase := "ninguna"

  /** `specificDiets.join(', ') || 'ninguna'`. */
  function DietsPhrase(diets: seq<string>): (r: string)
    ensures (diets == [] || diets == [""]) ==> r == NoDietsPhrase
    ensures !(diets == [] || diets == [""]) ==> r == Join(diets, ", ")
  {
    JoinEmpty(diets, ", ");
    var joined := Join(diets, ", ");
    if joined == "" then NoDietsPhrase else joined
  }

  /** `desiredServings || 4`: absent or 0 becomes 4. */
  function EffectiveServings(desired: Option<int>): (n: int)
    ensures n != 0
    ensures desired.Some? && desired.value != 0 ==> n == desired.value
    ensures (desired.None? || desired.value == 0) ==> n == 4
  {
    if desired.None? || desired.value == 0 then 4 else desired.value
  }

  /** The variable fields of the recipe prompt; the surrounding fixed
      instruction text is not modelled. */
  datatype RecipePrompt = RecipePrompt(
    ingredients: string, time: string, goal: string, diets: string, servings: string)

  function RecipePromptFor(ings: seq<Ingredient>, prefs: UserPreferences): (p: RecipePrompt)
    ensures TimeFromPhrase(p.time) == Some(prefs.timeAvailable)
    ensures GoalFromPhrase(p.goal) == Some(prefs.dietaryGoal)
    ensures p.servings == IntToString(EffectiveServings(prefs.desiredServings))
    ensures p.ingredients == IngredientsList(ings)
    ensures p.diets == DietsPhrase(prefs.specificDiets)
  {
    PhraseTablesRoundTrip(prefs.timeAvailable, prefs.dietaryGoal);
    RecipePrompt(
      IngredientsList(ings),
      TimePhrase(prefs.timeAvailable),
      GoalPhrase(prefs.dietaryGoal),
      DietsPhrase(prefs.specificDiets),
      IntToString(EffectiveServings(prefs.desiredServings)))
  }

  lemma IntToStringInjective(m: int, n: int)
    requires IntToString(m) == IntToString(n)
    ensures m == n
  {
    var sm, sn := IntToString(m), IntToString(n);
    assert m < 0 <==> sm[0] == '-' by {
      if m >= 0 { assert IsDigit(NatToString(m)[0]); }
    }
    assert n < 0 <==> sn[0] == '-' by {
      if n >= 0 { assert IsDigit(NatToString(n)[0]); }
    }
    if m < 0 {
      assert NatToString(-m) == sm[1..] == sn[1..] == NatToString(-n);
      NatToStringInjective(-m, -n);
    } else {
      NatToStringInjective(m, n);
    }
  }

  /** Two preference sets give the same prompt fields only when they agree
      on time, goal and effective servings. */
  lemma PromptDeterminesPreferences(ings: seq<Ingredient>, p: UserPreferences, q: UserPreferences)
    requires RecipePromptFor(ings, p) == RecipePromptFor(ings, q)
    ensures p.timeAvailable == q.timeAvailable
    ensures p.dietaryGoal == q.dietaryGoal
    ensures EffectiveServings(p.desiredServings) == EffectiveServings(q.desiredServings)
  {
    IntToStringInjective(EffectiveServings(p.desiredServings), EffectiveServings(q.desiredServings));
  }

  /** The worked example: quick, hearty, one diet and two servings. */
  lemma ExamplePrompt(ings: seq<Ingredient>)
    ensures var p := RecipePromptFor(ings, UserPreferences(Quick, Hearty, ["Vegana"], Some(2)));
      p.time == "menos de 30 minutos" && p.goal == "comida contundente y satisfactoria"
      && p.diets == "Vegana" && p.servings == "2"
  {
    assert NatToString(2) == "2";
  }

  /** `suggestRecipes`: one text call; a failed call raises the fixed error,
      unparsable text gives `[]`, otherwise the parsed recipes in service
      order, each with an id ending in its index. */
  function SuggestRecipes(
    ings: seq<Ingredient>,
    prefs: UserPreferences,
    generate: RecipePrompt -> Reply,
    parse: string -> Option<seq<Recipe>>,
    stamp: nat -> nat): (r: Result<seq<Recipe>, string>)
    ensures generate(RecipePromptFor(ings, prefs)).CallFailed? <==> r.Failure?
    ensures r.Failure? ==> r.error == SuggestError
    ensures r.Success? ==>
      match parse(Trim(generate(RecipePromptFor(ings, prefs)).text))
      case None => r.value == []
      case Some(items) =>
        && |r.value| == |items|
        && (forall i :: 0 <= i < |items| ==> r.value[i] == items[i].(id := r.value[i].id))
        && (forall i :: 0 <= i < |items| ==> StartsWith(r.value[i].id, "recipe-") && IdEndsWithIndex(r.value[i].id, i))
        && (forall i, j :: 0 <= i < j < |items| ==> r.value[i].id != r.value[j].id)
  {
    match generate(RecipePromptFor(ings, prefs))
    case CallFailed => Failure(SuggestError)
    case Answered(text) =>
      match parse(Trim(text))
      case None => Success([])
      case Some(items) =>
        assert "recipe" + "-" == "recipe-";
        var named := AssignRecipeIds(items, "recipe", stamp);
        Success(named)
  }

  /** Whitespace around the response text does not change the outcome. */
  lemma SuggestRecipesIgnoresPadding(
    ings: seq<Ingredient>, prefs: UserPreferences,
    generate: RecipePrompt -> Reply, generate': RecipePrompt -> Reply,
    parse: string -> Option<seq<Recipe>>, stamp: nat -> nat,
    a: string, text: string, b: string)
    requires IsBlank(a) && IsBlank(b)
    requires generate(RecipePromptFor(ings, prefs)) == Answered(text)
    requires generate'(RecipePromptFor(ings, prefs)) == Answered(a + text + b)
    ensures SuggestRecipes(ings, prefs, generate, parse, stamp)
         == SuggestRecipes(ings, prefs, generate', parse, stamp)
  {
    TrimIgnoresPadding(a, text, b);
  }
}

=== FILE: home_screen.dfy ===
/** The home screen's state and its transitions (app/index.tsx): the four
    views, back navigation, recipe selection, preference merging, the
    effect that clears data on entering the home view, and the two
    asynchronous flows, each split into its start and its completion. */
module HomeScreen {
  import opened Wrappers
  import opened Types
  import opened Ids
  import Text
  import Aggregation
  import IngredientEditor

  const IdentifyFailedMessage := "No pudimos identificar los ingredientes de una o más imágenes. Inténtalo de nuevo o edita la lista manualmente."
  const NoIngredientsMessage := "No pudimos identificar ingredientes en las imágenes. Inténtalo de nuevo con imágenes más claras o edita la lista manualmente."
  const EmptyListMessage := "Por favor, añade al menos un ingrediente para buscar recetas."
  const NoRecipesMessage := "No encontramos recetas con esos ingredientes y preferencias. Prueba a ajustar los ingredientes o preferencias."
  const SuggestFailedMessage := "Hubo un problema al generar recetas. Por favor, inténtalo de nuevo."

  datatype AppState = AppState(
    view: AppView,
    uploadedImages: Option<seq<string>>,
    detectedIngredients: seq<Ingredient>,
    suggestedRecipes: seq<Recipe>,
    selectedRecipe: Option<Recipe>,
    isLoading: bool,
    error: Option<string>,
    preferences: UserPreferences)

  const DefaultPreferences := UserPreferences(Normal, Hearty, [], Some(4))

  const InitialState := AppState(Home, None, [], [], None, false, None, DefaultPreferences)

  /** Entering the home view from another view runs the effect that clears
      images, ingredients, recipes and the selection. */
  function SetView(s: AppState, v: AppView): (r: AppState)
    ensures r.view == v
    ensures v == Home && s.view != Home ==>
      r == s.(view := Home, uploadedImages := None, detectedIngredients := [],
              suggestedRecipes := [], selectedRecipe := None)
    ensures !(v == Home && s.view != Home) ==> r == s.(view := v)
  {
    var moved := s.(view := v);
    if v == Home && s.view != Home then
      moved.(uploadedImages := None, detectedIngredients := [], suggestedRecipes := [], selectedRecipe := None)
    else moved
  }

  /** `handleSelectRecipe`: the recipe is selected and the detail view
      opens; nothing else changes. */
  function SelectRecipe(s: AppState, recipe: Recipe): (r: AppState)
    ensures r == s.(view := RecipeDetail, selectedRecipe := Some(recipe))
  {
    SetView(s, RecipeDetail).(selectedRecipe := Some(recipe))
  }

  /** `handleBack`: clears the error, then steps one view back and discards
      what the left view showed; on the home view nothing else changes. */
  function Back(s: AppState): (r: AppState)
    ensures r.error.None?
    ensures s.view == RecipeDetail ==>
      r == s.(view := RecipeSuggestions, selectedRecipe := None, error := None)
    ensures s.view == RecipeSuggestions ==>
      r == s.(view := IngredientEdit, suggestedRecipes := [], error := None)
    ensures s.view == IngredientEdit ==>
      r == s.(view := Home, uploadedImages := None, detectedIngredients := [],
               suggestedRecipes := [], selectedRecipe := None, error := None)
    ensures s.view == Home ==> r == s.(error := None)
  {
    var s0 := s.(error := None);
    match s.view
    case RecipeDetail => SetView(s0, RecipeSuggestions).(selectedRecipe := None)
    case RecipeSuggestions => SetView(s0, IngredientEdit).(suggestedRecipes := [])
    case IngredientEdit => SetView(s0, Home).(uploadedImages := None, detectedIngredients := [])
    case Home => s0
  }

  /** Back from a recipe opened on the suggestions view returns to that
      view with the data it had, the error cleared. */
  lemma BackUndoesSelect(s: AppState, recipe: Recipe)
    requires s.view == RecipeSuggestions && s.selectedRecipe.None?
    ensures Back(SelectRecipe(s, recipe)) == s.(error := None)
  {
  }

  /** The header logo: `setCurrentView(AppView.HOME)`. */
  function LogoClick(s: AppState): (r: AppState)
    ensures r.view == Home
    ensures s.view != Home ==>
      r.uploadedImages.None? && r.detectedIngredients == [] && r.suggestedRecipes == [] && r.selectedRecipe.None?
    ensures r.isLoading == s.isLoading && r.error == s.error && r.preferences == s.preferences
    ensures s.view == Home ==> r == s
  {
    SetView(s, Home)
  }

  /** `handlePreferencesChange`: the partial update is merged in; nothing
      but the preferences changes. */
  function PreferencesChange(s: AppState, update: PartialPreferences): (r: AppState)
    ensures r == s.(preferences := Merge(s.preferences, update))
    ensures update == NoChange ==> r == s
  {
    s.(preferences := Merge(s.preferences, update))
  }

  /** The `renderView` fallback: the detail view without a selected recipe
      switches to the suggestions view. */
  function RenderFallback(s: AppState): (r: AppState)
    ensures r.view == RecipeDetail ==> r.selectedRecipe.Some?
    ensures s.view == RecipeDetail && s.selectedRecipe.None? ==> r == s.(view := RecipeSuggestions)
    ensures s.view != RecipeDetail || s.selectedRecipe.Some? ==> r == s
  {
    if s.view == RecipeDetail && s.selectedRecipe.None? then SetView(s, RecipeSuggestions) else s
  }

  /** The synchronous start of `handleImageUpload`. */
  function BeginImageUpload(s: AppState, images: seq<string>): (r: AppState)
    ensures r == s.(error := None, uploadedImages := Some(images), isLoading := true, view := IngredientEdit)
  {
    SetView(s.(error := None, uploadedImages := Some(images), isLoading := true), IngredientEdit)
  }

  /** The completion of `handleImageUpload` once every identification has
      settled: on any failure the list is emptied and the failure message
      shown; otherwise the deduplicated list is stored, with a message when
      images were given but nothing was found. */
  function FinishImageUpload<E>(
    s: AppState, images: seq<string>,
    outcomes: seq<Result<seq<Ingredient>, E>>, stamp: nat -> nat): (r: AppState)
    requires |outcomes| == |images|
    ensures !r.isLoading && r.view == s.view
    ensures (exists i :: 0 <= i < |outcomes| && outcomes[i].Failure?) ==>
      r == s.(detectedIngredients := [], error := Some(IdentifyFailedMessage), isLoading := false)
    ensures (forall i :: 0 <= i < |outcomes| ==> outcomes[i].Success?) ==>
      && r.detectedIngredients == Aggregation.AggregateIngredients(outcomes, stamp).value
      && (r.error == if r.detectedIngredients == [] && images != [] then Some(NoIngredientsMessage) else s.error)
      && r == s.(detectedIngredients := r.detectedIngredients, error := r.error, isLoading := false)
  {
    match Aggregation.AggregateIngredients(outcomes, stamp)
    case None => s.(detectedIngredients := [], error := Some(IdentifyFailedMessage), isLoading := false)
    case Some(list) =>
      var stored := s.(detectedIngredients := list, isLoading := false);
      if |list| == 0 && |images| > 0 then stored.(error := Some(NoIngredientsMessage)) else stored
  }

  /** The synchronous start of `handleIngredientsConfirm`: an empty list only
      sets an error; otherwise the list is stored and loading starts on the
      suggestions view. */
  function BeginConfirm(s: AppState, finalIngredients: seq<Ingredient>): (r: AppState)
    ensures finalIngredients == [] ==> r == s.(error := Some(EmptyListMessage))
    ensures finalIngredients != [] ==>
      r == s.(error := None, detectedIngredients := finalIngredients, isLoading := true, view := RecipeSuggestions)
  {
    if |finalIngredients| == 0 then s.(error := Some(EmptyListMessage))
    else SetView(s.(error := None, detectedIngredients := finalIngredients, isLoading := true), RecipeSuggestions)
  }

  /** The completion of `handleIngredientsConfirm`: a failure empties the
      list and shows its message; otherwise the recipes get pairwise
      distinct `rec-<t>-<index>` ids, with a message when there are none. */
  function FinishConfirm(s: AppState, outcome: Result<seq<Recipe>, string>, stamp: nat -> nat): (r: AppState)
    ensures !r.isLoading && r.view == s.view && r.detectedIngredients == s.detectedIngredients
    ensures outcome.Failure? ==>
      r == s.(suggestedRecipes := [], error := Some(SuggestFailedMessage), isLoading := false)
    ensures outcome.Success? ==>
      && |r.suggestedRecipes| == |outcome.value|
      && (forall i :: 0 <= i < |outcome.value| ==>
            r.suggestedRecipes[i] == outcome.value[i].(id := r.suggestedRecipes[i].id))
      && (forall i, j :: 0 <= i < j < |r.suggestedRecipes| ==>
            r.suggestedRecipes[i].id != r.suggestedRecipes[j].id)
      && (forall i :: 0 <= i < |r.suggestedRecipes| ==>
            Text.StartsWith(r.suggestedRecipes[i].id, "rec-") && IdEndsWithIndex(r.suggestedRecipes[i].id, i))
      && (r.error == if outcome.value == [] then Some(NoRecipesMessage) else s.error)
      && r == s.(suggestedRecipes := r.suggestedRecipes, error := r.error, isLoading := false)
  {
    match outcome
    case Failure(_) => s.(suggestedRecipes := [], error := Some(SuggestFailedMessage), isLoading := false)
    case Success(recipes) =>
      assert "rec" + "-" == "rec-";
      var stored := s.(suggestedRecipes := AssignRecipeIds(recipes, "rec", stamp), isLoading := false);
      if |recipes| == 0 then stored.(error := Some(NoRecipesMessage)) else stored
  }

  /** Zero images: no identification runs, the list is empty and no
      message is shown. */
  lemma NoImagesFindNothing<E>(s: AppState, images: seq<string>,
                                outcomes: seq<Result<seq<Ingredient>, E>>, stamp: nat -> nat)
    requires |outcomes| == |images|
    requires images == []
    ensures FinishImageUpload(s, images, outcomes, stamp) == s.(detectedIngredients := [], isLoading := false)
  {
    assert outcomes == [];
    assert Aggregation.SettleAll(outcomes) == Some([]);
  }

  /** When the editor's confirm button is enabled, confirming starts the
      recipe request rather than reporting an empty list. */
  lemma EnabledConfirmStartsRequest(s: AppState, isLoading: bool, list: seq<Ingredient>)
    requires IngredientEditor.CanConfirm(isLoading, list)
    ensures BeginConfirm(s, list).view == RecipeSuggestions
    ensures BeginConfirm(s, list).isLoading && BeginConfirm(s, list).error.None?
  {
  }
}

=== FILE: ids.dfy ===
/** Locally generated identifiers of the shape `<prefix>-<timestamp>-<index>`
    (app/index.tsx, services/geminiService.ts, components/IngredientEditor.tsx).
    The timestamp is `Date.now()`, read once per element; the model takes the
    clock as a function `stamp` from the element index to the reading, so
    every property below holds whatever the clock returns. */
module Ids {
  import opened Text
  import opened Types

  function MakeId(prefix: string, t: nat, index: nat): (id: string)
    ensures StartsWith(id, prefix + "-")
  {
    prefix + "-" + NatToString(t) + "-" + NatToString(index)
  }

  lemma NoDashInNumber(n: nat)
    ensures '-' !in NatToString(n)
  {
    assert !IsDigit('-');
  }

  /** Generated ids determine their timestamp and index. */
  lemma MakeIdInjective(prefix: string, t: nat, i: nat, t': nat, i': nat)
    requires MakeId(prefix, t, i) == MakeId(prefix, t', i')
    ensures t == t' && i == i'
  {
    var s, s' := MakeId(prefix, t, i), MakeId(prefix, t', i');
    var n := |prefix| + 1;
    assert s[n..] == NatToString(t) + "-" + NatToString(i);
    assert s'[n..] == NatToString(t') + "-" + NatToString(i');
    NoDashInNumber(t);
    NoDashInNumber(t');
    SplitAtSeparator(NatToString(t), NatToString(i), NatToString(t'), NatToString(i'), '-');
    NatToStringInjective(t, t');
    NatToStringInjective(i, i');
  }

  lemma IdsAtDistinctIndicesDiffer(prefix: string, stamp: nat -> nat, n: nat)
    ensures forall i, j :: 0 <= i < j < n ==> MakeId(prefix, stamp(i), i) != MakeId(prefix, stamp(j), j)
  {
    forall i, j | 0 <= i < j < n
      ensures MakeId(prefix, stamp(i), i) != MakeId(prefix, stamp(j), j)
    {
      if MakeId(prefix, stamp(i), i) == MakeId(prefix, stamp(j), j) {
        MakeIdInjective(prefix, stamp(i), i, stamp(j), j);
      }
    }
  }

  /** An id that ends in `-<index>`. */
  predicate IdEndsWithIndex(id: string, index: nat) {
    var suffix := "-" + NatToString(index);
    |suffix| <= |id| && id[|id| - |suffix|..] == suffix
  }

  lemma MakeIdEndsWithIndex(prefix: string, t: nat, i: nat)
    ensures IdEndsWithIndex(MakeId(prefix, t, i), i)
  {
    var id := MakeId(prefix, t, i);
    var suffix := "-" + NatToString(i);
    assert id == (prefix + "-" + NatToString(t)) + suffix;
  }

  /** The ids `<prefix>-<stamp(i)>-<i>` for the indices `0 .. n-1`: each
      starts with the prefix and ends with its index, and they are pairwise
      distinct whatever the clock returns. */
  function FreshIds(prefix: string, stamp: nat -> nat, n: nat): (ids: seq<string>)
    ensures |ids| == n
    ensures forall i :: 0 <= i < n ==> StartsWith(ids[i], prefix + "-") && IdEndsWithIndex(ids[i], i)
    ensures forall i, j :: 0 <= i < j < n ==> ids[i] != ids[j]
  {
    IdsAtDistinctIndicesDiffer(prefix, stamp, n);
    forall i | 0 <= i < n ensures IdEndsWithIndex(MakeId(prefix, stamp(i), i), i) {
      MakeIdEndsWithIndex(prefix, stamp(i), i);
    }
    seq(n, i requires 0 <= i < n => MakeId(prefix, stamp(i), i))
  }

  /** `manual-${Date.now()}-${suffix}`, the id of a manually added
      ingredient. The random suffix is a parameter. */
  function ManualId(t: nat, suffix: string): (id: string)
    ensures StartsWith(id, "manual-")
  {
    "manual-" + NatToString(t) + "-" + suffix
  }

  /** An id carrying a generated prefix that does not start with `m`
      (`init`, `ing`, `ai`, `rec`) is never a manual id. */
  lemma GeneratedIdIsNotManual(id: string, prefix: string)
    requires prefix != [] && prefix[0] != 'm'
    requires StartsWith(id, prefix + "-")
    ensures !StartsWith(id, "manual-")
  {
    assert id[0] == (prefix + "-")[0] == prefix[0];
  }

  /** `xs.map((x, index) => ({...x, id: `<prefix>-${Date.now()}-${index}`}))`
      on ingredients: every other field is kept and the ids are pairwise distinct. */
  function AssignIngredientIds(xs: seq<Ingredient>, prefix: string, stamp: nat -> nat): (r: seq<Ingredient>)
    ensures |r| == |xs|
    ensures forall i :: 0 <= i < |r| ==> r[i] == xs[i].(id := r[i].id)
    ensures forall i :: 0 <= i < |r| ==> StartsWith(r[i].id, prefix + "-") && IdEndsWithIndex(r[i].id, i)
    ensures forall i, j :: 0 <= i < j < |r| ==> r[i].id != r[j].id
  {
    var ids := FreshIds(prefix, stamp, |xs|);
    seq(|xs|, i requires 0 <= i < |xs| => xs[i].(id := ids[i]))
  }

  /** The same renaming on recipes, with the same contract as
      `AssignIngredientIds`; the source repeats it for the second record type. */
  function AssignRecipeIds(xs: seq<Recipe>, prefix: string, stamp: nat -> nat): (r: seq<Recipe>)
    ensures |r| == |xs|
    ensures forall i :: 0 <= i < |r| ==> r[i] == xs[i].(id := r[i].id)
    ensures forall i :: 0 <= i < |r| ==> StartsWith(r[i].id, prefix + "-") && IdEndsWithIndex(r[i].id, i)
    ensures forall i, j :: 0 <= i < j < |r| ==> r[i].id != r[j].id
  {
    var ids := FreshIds(prefix, stamp, |xs|);
    seq(|xs|, i requires 0 <= i < |xs| => xs[i].(id := ids[i]))
  }
}

=== FILE: image_uploader.dfy ===
/** The image preview list of the home screen
    (components/ImageUploader.tsx): previews are JPEG data URLs built from
    picker results, removed by position and submitted all at once. Camera
    and gallery pickers and the permission prompt are inputs. */
module ImageUploader {
  import opened Wrappers
  import opened Text
  import opened GeminiService

  const JpegPrefix := "data:image/jpeg;base64,"
  const CameraError := "Error al tomar la foto. Inténtalo de nuevo."
  const LibraryError := "Error al seleccionar imágenes. Inténtalo de nuevo."
  const NoImageError := "Por favor, selecciona o captura al menos una imagen."

  /** `data:image/jpeg;base64,${base64}`. */
  function DataUrl(base64: string): (r: string)
    ensures StartsWith(r, JpegPrefix)
  {
    JpegPrefix + base64
  }

  /** The service's payload extraction recovers the base64 data of a preview. */
  lemma PayloadOfDataUrl(base64: string)
    requires ',' !in base64
    ensures ImagePayload(DataUrl(base64)) == Some(base64)
  {
    var head := "data:image/jpeg;base64";
    assert JpegPrefix == head + [','];
    assert DataUrl(base64) == head + [','] + base64 + [];
    ImagePayloadOfSegments(head, base64, []);
  }

  /** The request built for a preview carries exactly the picked base64
      data, as a JPEG. */
  lemma PreviewRequestCarriesData(base64: string)
    requires ',' !in base64
    ensures VisionRequestFor(DataUrl(base64)) == VisionRequest(Some(base64), "image/jpeg")
  {
    PayloadOfDataUrl(base64);
  }

  /** One picked image; `base64` is absent when the picker gave no data. */
  datatype Asset = Asset(base64: Option<string>)

  /** `if (asset.base64)`: present and non-empty. */
  predicate HasData(a: Asset) {
    a.base64.Some? && a.base64.value != ""
  }

  /** What a picker returns: cancelled, some assets, or an exception. */
  datatype PickerResult = Canceled | Picked(assets: seq<Asset>) | PickerFailed

  datatype UploaderState = UploaderState(previews: seq<string>, error: Option<string>, isProcessing: bool)

  predicate AllDataUrls(previews: seq<string>) {
    forall i :: 0 <= i < |previews| ==> StartsWith(previews[i], JpegPrefix)
  }

  /** The data URLs of the assets that carry data, in asset order. */
  function DataUrls(assets: seq<Asset>): (r: seq<string>)
    ensures AllDataUrls(r)
    ensures |r| <= |assets|
    ensures |r| == |AssetData(assets)|
  {
    if assets == [] then []
    else if HasData(assets[0]) then [DataUrl(assets[0].base64.value)] + DataUrls(assets[1..])
    else DataUrls(assets[1..])
  }

  /** The base64 data of the assets that carry data, in asset order. */
  function AssetData(assets: seq<Asset>): seq<string> {
    if assets == [] then []
    else if HasData(assets[0]) then [assets[0].base64.value] + AssetData(assets[1..])
    else AssetData(assets[1..])
  }

  /** Reading the payload back from each new preview yields exactly the
      assets' base64 data, in order. */
  lemma {:induction false} PayloadsOfDataUrls(assets: seq<Asset>)
    requires forall i :: 0 <= i < |assets| && assets[i].base64.Some? ==> ',' !in assets[i].base64.value
    ensures var urls := DataUrls(assets);
      |urls| == |AssetData(assets)|
      && forall i :: 0 <= i < |urls| ==> ImagePayload(urls[i]) == Some(AssetData(assets)[i])
  {
    if assets != [] {
      PayloadsOfDataUrls(assets[1..]);
      if HasData(assets[0]) {
        PayloadOfDataUrl(assets[0].base64.value);
      }
    }
  }

  /** `handleTakePhoto`: without permission nothing happens; otherwise the
      error is cleared and at most one preview, from the first asset, is
      appended when it carries data. */
  function TakePhoto(st: UploaderState, granted: bool, result: PickerResult): (r: UploaderState)
    ensures !granted ==> r == st
    ensures r.isProcessing == st.isProcessing
    ensures granted ==> r.error == if result.PickerFailed? then Some(CameraError) else None
    ensures |st.previews| <= |r.previews| <= |st.previews| + 1 && r.previews[..|st.previews|] == st.previews
    ensures |r.previews| == |st.previews| + 1 <==>
      granted && result.Picked? && |result.assets| > 0 && HasData(result.assets[0])
    ensures |r.previews| == |st.previews| + 1 ==>
      result.Picked? && r.previews[|st.previews|] == DataUrl(result.assets[0].base64.value)
    ensures AllDataUrls(st.previews) ==> AllDataUrls(r.previews)
  {
    if !granted then st
    else
      var cleared := st.(error := None);
      match result
      case PickerFailed => cleared.(error := Some(CameraError))
      case Canceled => cleared
      case Picked(assets) =>
        if |assets| > 0 && HasData(assets[0]) then
          cleared.(previews := st.previews + [DataUrl(assets[0].base64.value)])
        else cleared
  }

  /** `handlePickImages`: without permission nothing happens; otherwise the
      error is cleared and one preview per asset with data is appended, in
      asset order, after the existing ones. */
  function PickImages(st: UploaderState, granted: bool, result: PickerResult): (r: UploaderState)
    ensures !granted ==> r == st
    ensures r.isProcessing == st.isProcessing
    ensures granted ==> r.error == if result.PickerFailed? then Some(LibraryError) else None
    ensures r.previews == if granted && result.Picked? then st.previews + DataUrls(result.assets) else st.previews
    ensures AllDataUrls(st.previews) ==> AllDataUrls(r.previews)
  {
    if !granted then st
    else
      var cleared := st.(error := None);
      match result
      case PickerFailed => cleared.(error := Some(LibraryError))
      case Canceled => cleared
      case Picked(assets) =>
        if |assets| > 0 then cleared.(previews := st.previews + DataUrls(assets))
        else cleared
  }

  /** `handleRemovePreview`: `previews.filter((_, index) => index !== indexToRemove)`. */
  method RemovePreview(previews: seq<string>, indexToRemove: int) returns (kept: seq<string>)
    ensures 0 <= indexToRemove < |previews| ==>
      kept == previews[..indexToRemove] + previews[indexToRemove + 1..]
    ensures !(0 <= indexToRemove < |previews|) ==> kept == previews
    ensures AllDataUrls(previews) ==> AllDataUrls(kept)
  {
    kept := [];
    for index := 0 to |previews|
      invariant 0 <= indexToRemove < index ==>
        kept == previews[..indexToRemove] + previews[indexToRemove + 1..index]
      invariant !(0 <= indexToRemove < index) ==> kept == previews[..index]
    {
      if index != indexToRemove {
        kept := kept + [previews[index]];
      }
    }
    assert previews[..|previews|] == previews;
  }

  /** `handleSubmitImages`: with previews, processing starts and the whole
      list is uploaded; without, an error is set and nothing is uploaded. */
  function SubmitImages(st: UploaderState): (r: (UploaderState, Option<seq<string>>))
    ensures r.1.Some? <==> |st.previews| > 0
    ensures r.1.Some? ==> r.1.value == st.previews && r.0 == st.(isProcessing := true)
    ensures r.1.None? ==> r.0 == st.(error := Some(NoImageError))
  {
    if |st.previews| > 0 then (st.(isProcessing := true), Some(st.previews))
    else (st.(error := Some(NoImageError)), None)
  }

  /** `effectiveIsLoading`: the camera and gallery buttons are disabled. */
  predicate ActionsDisabled(st: UploaderState, isLoadingExternal: bool) {
    st.isProcessing || isLoadingExternal
  }

  /** The submit button's `disabled`. */
  predicate SubmitDisabled(st: UploaderState, isLoadingExternal: bool) {
    ActionsDisabled(st, isLoadingExternal) || |st.previews| == 0
  }

  /** The submit button is disabled exactly when the other buttons are, or
      when pressing it would only report the no-image error. */
  lemma SubmitDisabledIffNoUpload(st: UploaderState, isLoadingExternal: bool)
    ensures SubmitDisabled(st, isLoadingExternal)
        <==> ActionsDisabled(st, isLoadingExternal) || SubmitImages(st).1.None?
  {
  }

  /** A submit that uploads disables the camera and gallery buttons whatever
      the app's loading flag; one that does not leaves them as they were. */
  lemma SubmitDisablesActions(st: UploaderState, isLoadingExternal: bool)
    ensures SubmitImages(st).1.Some? ==> ActionsDisabled(SubmitImages(st).0, isLoadingExternal)
    ensures SubmitImages(st).1.None? ==>
      (ActionsDisabled(SubmitImages(st).0, isLoadingExternal) <==> ActionsDisabled(st, isLoadingExternal))
  {
  }

  /** An enabled submit button always uploads, and afterwards every action
      button is disabled. */
  lemma EnabledSubmitUploads(st: UploaderState, isLoadingExternal: bool)
    requires !SubmitDisabled(st, isLoadingExternal)
    ensures SubmitImages(st).1 == Some(st.previews)
    ensures ActionsDisabled(SubmitImages(st).0, isLoadingExternal)
    ensures SubmitDisabled(SubmitImages(st).0, isLoadingExternal)
  {
  }
}

=== FILE: ingredient_editor.dfy ===
/** Ingredient list editing (components/IngredientEditor.tsx): id filling
    on entry, manual add from a three-field form, remove by id and update of
    one field by id. A manual id is `manual-<time>-<random>`, with the
    reading and the random suffix as parameters; it never equals a generated
    id, but no uniqueness is claimed between two manual ids. */
module IngredientEditor {
  import opened Wrappers
  import opened Text
  import opened Types
  import opened Ids

  /** The manual-entry form: name, quantity and unit inputs. */
  datatype Form = Form(name: string, quantity: string, unit: string)

  const InitialForm := Form("", "1", "unidad(es)")

  datatype EditorState = EditorState(ingredients: seq<Ingredient>, form: Form)

  /** The effect on `initialIngredients`: a non-empty id is kept, an empty
      one is replaced by `init-<t>-<index>`. */
  function FillIds(initial: seq<Ingredient>, stamp: nat -> nat): (r: seq<Ingredient>)
    ensures |r| == |initial|
    ensures forall i :: 0 <= i < |r| ==> r[i] == initial[i].(id := r[i].id) && r[i].id != ""
    ensures forall i :: 0 <= i < |r| && initial[i].id != "" ==> r[i].id == initial[i].id
    ensures forall i :: 0 <= i < |r| && initial[i].id == "" ==>
      StartsWith(r[i].id, "init-") && IdEndsWithIndex(r[i].id, i)
    ensures forall i, j :: 0 <= i < j < |r| && initial[i].id == "" && initial[j].id == "" ==>
      r[i].id != r[j].id
  {
    var ids := FreshIds("init", stamp, |initial|);
    seq(|initial|, i requires 0 <= i < |initial| =>
      if initial[i].id != "" then initial[i] else initial[i].(id := ids[i]))
  }

  /** Filling ids again changes nothing: every id is already non-empty. */
  lemma FillIdsIdempotent(initial: seq<Ingredient>, stamp: nat -> nat, stamp': nat -> nat)
    ensures FillIds(FillIds(initial, stamp), stamp') == FillIds(initial, stamp)
  {
  }

  /** How `trim` acts on the two trimmed fields joined by a space. */
  lemma TrimJoinedFields(quantity: string, unit: string)
    ensures var q, u := Trim(quantity), Trim(unit);
      Trim(q + " " + u) == if q == "" then u else if u == "" then q else q + " " + u
  {
    TrimSpaceJoin(Trim(quantity), Trim(unit));
  }

  /** `${quantity.trim()} ${unit.trim()}`.trim() || '1 unidad'. */
  function FullQuantity(quantity: string, unit: string): (r: string)
    ensures IsBlank(quantity) && IsBlank(unit) ==> r == "1 unidad"
    ensures !IsBlank(quantity) && !IsBlank(unit) ==> r == Trim(quantity) + " " + Trim(unit)
    ensures IsBlank(quantity) && !IsBlank(unit) ==> r == Trim(unit)
    ensures !IsBlank(quantity) && IsBlank(unit) ==> r == Trim(quantity)
  {
    TrimJoinedFields(quantity, unit);
    var full := Trim(Trim(quantity) + " " + Trim(unit));
    if full == "" then "1 unidad" else full
  }

  /** `handleAddIngredient`: a blank name changes nothing; otherwise one
      ingredient with the trimmed name and the id `manual-<t>-<suffix>` is
      appended and the form is reset. */
  function AddIngredient(st: EditorState, t: nat, suffix: string): (r: EditorState)
    ensures IsBlank(st.form.name) ==> r == st
    ensures !IsBlank(st.form.name) ==>
      && r.form == InitialForm
      && r.ingredients == st.ingredients + [Ingredient(ManualId(t, suffix), Trim(st.form.name),
           FullQuantity(st.form.quantity, st.form.unit), None)]
  {
    if Trim(st.form.name) == "" then st
    else
      var added := Ingredient(ManualId(t, suffix), Trim(st.form.name), FullQuantity(st.form.quantity, st.form.unit), None);
      EditorState(st.ingredients + [added], InitialForm)
  }

  /** `handleRemoveIngredient`: `ingredients.filter(ing => ing.id !== id)`. */
  function RemoveIngredient(list: seq<Ingredient>, id: string): (r: seq<Ingredient>)
    ensures forall x :: x in r <==> x in list && x.id != id
    ensures forall x :: x in list && x.id != id ==> multiset(r)[x] == multiset(list)[x]
    ensures |r| <= |list|
  {
    if list == [] then []
    else
      assert list == [list[0]] + list[1..];
      if list[0].id == id then RemoveIngredient(list[1..], id)
      else [list[0]] + RemoveIngredient(list[1..], id)
  }

  lemma {:induction false} RemoveAbsent(list: seq<Ingredient>, id: string)
    requires forall i :: 0 <= i < |list| ==> list[i].id != id
    ensures RemoveIngredient(list, id) == list
  {
    if list != [] {
      RemoveAbsent(list[1..], id);
    }
  }

  lemma {:induction false} RemoveAppend(a: seq<Ingredient>, b: seq<Ingredient>, id: string)
    ensures RemoveIngredient(a + b, id) == RemoveIngredient(a, id) + RemoveIngredient(b, id)
  {
    if a == [] {
      assert a + b == b;
    } else {
      assert (a + b)[1..] == a[1..] + b;
      RemoveAppend(a[1..], b, id);
    }
  }

  /** Removing the ingredient just added, when its id is new, restores the list. */
  lemma RemoveUndoesAdd(st: EditorState, t: nat, suffix: string)
    requires !IsBlank(st.form.name)
    requires forall i :: 0 <= i < |st.ingredients| ==> st.ingredients[i].id != ManualId(t, suffix)
    ensures RemoveIngredient(AddIngredient(st, t, suffix).ingredients, ManualId(t, suffix)) == st.ingredients
  {
    var id := ManualId(t, suffix);
    var added := AddIngredient(st, t, suffix).ingredients[|st.ingredients|];
    RemoveAppend(st.ingredients, [added], id);
    RemoveAbsent(st.ingredients, id);
  }

  /** The rows the editor starts with carry `ing-` ids from the aggregation
      or `init-` ids from the fill, so none of them is a manual id. */
  lemma FilledIdsAreNotManual(initial: seq<Ingredient>, stamp: nat -> nat)
    requires forall i :: 0 <= i < |initial| ==> initial[i].id == "" || StartsWith(initial[i].id, "ing-")
    ensures forall i :: 0 <= i < |initial| ==> !StartsWith(FillIds(initial, stamp)[i].id, "manual-")
  {
    var r := FillIds(initial, stamp);
    forall i | 0 <= i < |initial| ensures !StartsWith(r[i].id, "manual-") {
      if initial[i].id == "" {
        GeneratedIdIsNotManual(r[i].id, "init");
      } else {
        GeneratedIdIsNotManual(r[i].id, "ing");
      }
    }
  }

  /** Because of the `manual-` prefix, a row just added to rows without
      manual ids always has a fresh id, so removing it restores the list. */
  lemma RemoveUndoesAddAmongGenerated(st: EditorState, t: nat, suffix: string)
    requires !IsBlank(st.form.name)
    requires forall i :: 0 <= i < |st.ingredients| ==> !StartsWith(st.ingredients[i].id, "manual-")
    ensures RemoveIngredient(AddIngredient(st, t, suffix).ingredients, ManualId(t, suffix)) == st.ingredients
  {
    RemoveUndoesAdd(st, t, suffix);
  }

  /** The two editable fields of a row. */
  datatype Field = NameField | QuantityField

  function SetField(ing: Ingredient, field: Field, value: string): Ingredient {
    match field
    case NameField => ing.(name := value)
    case QuantityField => ing.(quantity := value)
  }

  /** `handleUpdateIngredient`: rows with the id get the chosen field set;
      length, order, ids and every other row and field are unchanged. */
  function UpdateIngredient(list: seq<Ingredient>, id: string, field: Field, value: string): (r: seq<Ingredient>)
    ensures |r| == |list|
    ensures forall i :: 0 <= i < |r| ==> r[i].id == list[i].id && r[i].state == list[i].state
    ensures forall i :: 0 <= i < |r| && list[i].id != id ==> r[i] == list[i]
    ensures forall i :: 0 <= i < |r| && list[i].id == id ==>
      && (r[i].name == if field == NameField then value else list[i].name)
      && (r[i].quantity == if field == QuantityField then value else list[i].quantity)
  {
    seq(|list|, i requires 0 <= i < |list| =>
      if list[i].id == id then SetField(list[i], field, value) else list[i])
  }

  /** Of two edits of the same field, the last one wins. */
  lemma UpdateLastWins(list: seq<Ingredient>, id: string, field: Field, v1: string, v2: string)
    ensures UpdateIngredient(UpdateIngredient(list, id, field, v1), id, field, v2)
         == UpdateIngredient(list, id, field, v2)
  {
  }

  lemma {:induction false} RemoveAfterUpdate(list: seq<Ingredient>, id: string, field: Field, value: string)
    ensures RemoveIngredient(UpdateIngredient(list, id, field, value), id) == RemoveIngredient(list, id)
  {
    if list != [] {
      var u := UpdateIngredient(list, id, field, value);
      assert u[1..] == UpdateIngredient(list[1..], id, field, value);
      RemoveAfterUpdate(list[1..], id, field, value);
    }
  }

  /** The confirm button: enabled only when not loading and the list is non-empty. */
  predicate CanConfirm(isLoading: bool, list: seq<Ingredient>) {
    !isLoading && |list| > 0
  }

  /** Adding a named ingredient while idle enables the confirm button;
      removing can only disable it, and removing the only row does. */
  lemma CanConfirmAfterEdits(st: EditorState, t: nat, suffix: string, id: string, isLoading: bool)
    ensures !isLoading && !IsBlank(st.form.name) ==> CanConfirm(isLoading, AddIngredient(st, t, suffix).ingredients)
    ensures CanConfirm(isLoading, RemoveIngredient(st.ingredients, id)) ==> CanConfirm(isLoading, st.ingredients)
    ensures |st.ingredients| == 1 && st.ingredients[0].id == id ==>
      !CanConfirm(isLoading, RemoveIngredient(st.ingredients, id))
  {
  }
}

=== FILE: recipe_card.dfy ===
/** The recipe card of the suggestions list (components/RecipeCard.tsx):
    its picture and its dietary tags, of which at most three are shown. */
module RecipeCard {
  import opened Wrappers
  import opened Text
  import opened Types
  import opened RecipeImage

  const CardSearchBase := Https + "source.unsplash.com/400x300/?"
  const CardSearchSuffix := ",food"
  const CardFallbackUrl := Https + "images.unsplash.com/photo-1540189549336-e6e99c3679fe?ixlib=rb-4.0.3&ixid=M3wxMjA3fDB8MHxzZWFyY2h8N3x8Zm9vZHxlbnwwfHwwfHx8MA%3D%3D&auto=format&fit=crop&w=500&q=80"

  /** The card picture: a usable `imageUrl`, else the 400x300 search for the
      query, else the card fallback; always a URL the card accepts as is. */
  function CardImageUrl(recipe: Recipe): (url: string)
    ensures IsUsableImageUrl(recipe.imageUrl) ==> url == recipe.imageUrl.value
    ensures !IsUsableImageUrl(recipe.imageUrl) && Truthy(recipe.imageQuery) ==>
      url == SearchUrl(CardSearchBase, recipe.imageQuery.value, CardSearchSuffix)
    ensures !IsUsableImageUrl(recipe.imageUrl) && !Truthy(recipe.imageQuery) ==> url == CardFallbackUrl
    ensures IsUsableImageUrl(Some(url))
  {
    HttpsIsUsable(CardSearchBase[|Https|..]);
    HttpsIsUsable(CardFallbackUrl[|Https|..]);
    ImageUrlIsStable(recipe, CardSearchBase, CardSearchSuffix, CardFallbackUrl);
    ImageUrl(recipe, CardSearchBase, CardSearchSuffix, CardFallbackUrl)
  }

  /** `dietaryTags && dietaryTags.length > 0`. */
  predicate TagsShown(recipe: Recipe) {
    recipe.dietaryTags.Some? && |recipe.dietaryTags.value| > 0
  }

  /** The tags row appears exactly when it has at least one tag to show. */
  lemma TagsShownIffVisibleTags(recipe: Recipe)
    ensures TagsShown(recipe) <==> recipe.dietaryTags.Some? && CardTags(recipe.dietaryTags.value).0 != []
  {
  }

  /** The tags row: `tags.slice(0, 3)` and, when tags are hidden, the badge
      `+N más` counting them. */
  function CardTags(tags: seq<string>): (r: (seq<string>, Option<string>))
    ensures |r.0| == if |tags| < 3 then |tags| else 3
    ensures r.0 + tags[|r.0|..] == tags
    ensures r.1.Some? <==> |tags| > |r.0|
    ensures r.1.Some? ==> r.1.value == "+" + NatToString(|tags| - |r.0|) + " más"
  {
    var shown := if |tags| < 3 then tags else tags[..3];
    assert shown + tags[|shown|..] == tags;
    var badge := if |tags| > 3 then Some("+" + NatToString(|tags| - 3) + " más") else None;
    (shown, badge)
  }
}

=== FILE: recipe_detail_view.dfy ===
/** The recipe detail view (components/RecipeDetailView.tsx): its picture,
    which optional sections appear, the nutrition lines and the step
    numbering. */
module RecipeDetailView {
  import opened Wrappers
  import opened Text
  import opened Types
  import opened RecipeImage
  import RecipeCard

  const DetailSearchBase := Https + "source.unsplash.com/800x600/?"
  const DetailSearchSuffix := ",food,cooking"
  const DetailFallbackUrl := Https + "images.unsplash.com/photo-1490645935967-10de6ba17061?ixlib=rb-4.0.3&ixid=M3wxMjA3fDB8MHxzZWFyY2h8MTZ8fGhlYWx0aHklMjBmb29kfGVufDB8fDB8fHww&auto=format&fit=crop&w=800&q=80"

  /** The detail picture: a usable `imageUrl`, else the 800x600 search for
      the query, else the detail fallback; always a URL accepted as is. */
  function DetailImageUrl(recipe: Recipe): (url: string)
    ensures IsUsableImageUrl(recipe.imageUrl) ==> url == recipe.imageUrl.value
    ensures !IsUsableImageUrl(recipe.imageUrl) && Truthy(recipe.imageQuery) ==>
      url == SearchUrl(DetailSearchBase, recipe.imageQuery.value, DetailSearchSuffix)
    ensures !IsUsableImageUrl(recipe.imageUrl) && !Truthy(recipe.imageQuery) ==> url == DetailFallbackUrl
    ensures IsUsableImageUrl(Some(url))
  {
    HttpsIsUsable(DetailSearchBase[|Https|..]);
    HttpsIsUsable(DetailFallbackUrl[|Https|..]);
    ImageUrlIsStable(recipe, DetailSearchBase, DetailSearchSuffix, DetailFallbackUrl);
    ImageUrl(recipe, DetailSearchBase, DetailSearchSuffix, DetailFallbackUrl)
  }

  /** `recipe.description && ...`. */
  predicate DescriptionShown(recipe: Recipe) {
    recipe.description != ""
  }

  /** `dietaryTags && dietaryTags.length > 0`. */
  predicate TagsSectionShown(recipe: Recipe) {
    recipe.dietaryTags.Some? && |recipe.dietaryTags.value| > 0
  }

  /** `possibleSubstitutions && possibleSubstitutions.length > 0`. */
  predicate SubstitutionsShown(recipe: Recipe) {
    recipe.possibleSubstitutions.Some? && |recipe.possibleSubstitutions.value| > 0
  }

  /** The description follows JavaScript truthiness: an empty description
      hides the section, a whitespace-only one still shows it. */
  lemma DescriptionShownIffTruthy(recipe: Recipe)
    ensures DescriptionShown(recipe) <==> Truthy(Some(recipe.description))
    ensures recipe.description != [] && IsBlank(recipe.description) ==> DescriptionShown(recipe)
  {
  }

  /** The detail view lists the tags for exactly the recipes whose card shows
      tags, and the card's tags are the first of the detail's. */
  lemma TagsSectionMatchesCard(recipe: Recipe)
    ensures TagsSectionShown(recipe) <==> RecipeCard.TagsShown(recipe)
    ensures TagsSectionShown(recipe) ==>
      var shown := RecipeCard.CardTags(recipe.dietaryTags.value).0;
      shown != [] && shown == recipe.dietaryTags.value[..|shown|]
  {
  }

  /** One line of the substitutions list: `• original: suggestion`. */
  function SubstitutionLine(sub: Substitution): string {
    "• " + sub.originalIngredient + ": " + sub.suggestion
  }

  /** The substitutions list, one line per suggested substitution. */
  function SubstitutionLines(recipe: Recipe): (lines: seq<string>)
    ensures recipe.possibleSubstitutions.None? ==> lines == []
    ensures recipe.possibleSubstitutions.Some? ==>
      && |lines| == |recipe.possibleSubstitutions.value|
      && forall i :: 0 <= i < |lines| ==> lines[i] == SubstitutionLine(recipe.possibleSubstitutions.value[i])
  {
    match recipe.possibleSubstitutions
    case None => []
    case Some(subs) => seq(|subs|, i requires 0 <= i < |subs| => SubstitutionLine(subs[i]))
  }

  /** The substitutions section appears exactly when it has a line to show. */
  lemma SubstitutionsShownIffLines(recipe: Recipe)
    ensures SubstitutionsShown(recipe) <==> SubstitutionLines(recipe) != []
  {
  }

  /** `estimatedNutrition && Object.values(estimatedNutrition).some(val => val)`. */
  predicate NutritionShown(recipe: Recipe) {
    && recipe.estimatedNutrition.Some?
    && var n := recipe.estimatedNutrition.value;
       Truthy(n.calories) || Truthy(n.protein) || Truthy(n.carbs) || Truthy(n.fat)
  }

  /** The four nutrients of the grid, in display order. */
  datatype Nutrient = Calories | Protein | Carbs | Fat

  /** The caption printed before each value. */
  function Caption(k: Nutrient): string {
    match k
    case Calories => "Calorías:"
    case Protein => "Proteína:"
    case Carbs => "Carbs:"
    case Fat => "Grasa:"
  }

  /** The value the record holds for a nutrient. */
  function ValueOf(n: Nutrition, k: Nutrient): Option<string> {
    match k
    case Calories => n.calories
    case Protein => n.protein
    case Carbs => n.carbs
    case Fat => n.fat
  }

  datatype NutritionLine = NutritionLine(nutrient: Nutrient, value: string)

  /** The text of a grid line: the caption, a space, the value. */
  function Rendered(line: NutritionLine): string {
    Caption(line.nutrient) + " " + line.value
  }

  /** Every caption is a colon-free word followed by one colon, and distinct
      nutrients have distinct captions. */
  lemma CaptionShape(k: Nutrient)
    ensures |Caption(k)| > 0 && Caption(k)[|Caption(k)| - 1] == ':'
    ensures ':' !in Caption(k)[..|Caption(k)| - 1]
  {
  }

  lemma CaptionInjective(k: Nutrient, k': Nutrient)
    requires Caption(k) == Caption(k')
    ensures k == k'
  {
    assert |Caption(Calories)| == 9 && |Caption(Protein)| == 9;
    assert |Caption(Carbs)| == 6 && |Caption(Fat)| == 6;
    assert Caption(Calories)[0] == 'C' && Caption(Protein)[0] == 'P';
    assert Caption(Carbs)[0] == 'C' && Caption(Fat)[0] == 'G';
  }

  /** A rendered line determines its nutrient and its value: the grid never
      shows two different lines the same way. */
  lemma RenderedDeterminesLine(l: NutritionLine, l': NutritionLine)
    requires Rendered(l) == Rendered(l')
    ensures l == l'
  {
    var c, c' := Caption(l.nutrient), Caption(l'.nutrient);
    CaptionShape(l.nutrient);
    CaptionShape(l'.nutrient);
    var w, w' := c[..|c| - 1], c'[..|c'| - 1];
    assert c == w + [':'];
    assert c' == w' + [':'];
    assert Rendered(l) == w + [':'] + (" " + l.value);
    assert Rendered(l') == w' + [':'] + (" " + l'.value);
    SplitAtSeparator(w, " " + l.value, w', " " + l'.value, ':');
    CaptionInjective(l.nutrient, l'.nutrient);
    assert l.value == (" " + l.value)[1..];
  }

  function LineIf(k: Nutrient, value: Option<string>): seq<NutritionLine> {
    if Truthy(value) then [NutritionLine(k, value.value)] else []
  }

  /** The nutrients of a list of lines, in order. */
  function Nutrients(lines: seq<NutritionLine>): (r: seq<Nutrient>)
    ensures |r| == |lines|
  {
    seq(|lines|, i requires 0 <= i < |lines| => lines[i].nutrient)
  }

  /** The nutrient column a truthy value contributes. */
  function Present(k: Nutrient, value: Option<string>): seq<Nutrient> {
    if Truthy(value) then [k] else []
  }

  lemma NutrientsOfLine(k: Nutrient, value: Option<string>)
    ensures Nutrients(LineIf(k, value)) == Present(k, value)
  {
  }

  /** Every line shows a non-empty value, the one the record holds for its nutrient. */
  predicate ShowsValues(n: Nutrition, lines: seq<NutritionLine>) {
    forall line <- lines :: line.value != "" && ValueOf(n, line.nutrient) == Some(line.value)
  }

  lemma LineIfShows(n: Nutrition, k: Nutrient)
    ensures ShowsValues(n, LineIf(k, ValueOf(n, k)))
  {
  }

  lemma ShowsValuesAppend(n: Nutrition, a: seq<NutritionLine>, b: seq<NutritionLine>)
    requires ShowsValues(n, a) && ShowsValues(n, b)
    ensures ShowsValues(n, a + b)
  {
  }

  lemma NutrientsAppend(a: seq<NutritionLine>, b: seq<NutritionLine>)
    ensures Nutrients(a + b) == Nutrients(a) + Nutrients(b)
  {
  }

  /** The lines of the nutrition grid, in the order calories, protein,
      carbs, fat: a nutrient has a line exactly when its value is truthy,
      and no line is blank. */
  function NutritionLines(n: Nutrition): (lines: seq<NutritionLine>)
    ensures |lines| <= 4
    ensures ShowsValues(n, lines)
    ensures Nutrients(lines) ==
      Present(Calories, n.calories) + Present(Protein, n.protein) +
      Present(Carbs, n.carbs) + Present(Fat, n.fat)
  {
    var a := LineIf(Calories, n.calories);
    var b := LineIf(Protein, n.protein);
    var c := LineIf(Carbs, n.carbs);
    var d := LineIf(Fat, n.fat);
    NutrientsOfLine(Calories, n.calories);
    NutrientsOfLine(Protein, n.protein);
    NutrientsOfLine(Carbs, n.carbs);
    NutrientsOfLine(Fat, n.fat);
    NutrientsAppend(a, b);
    NutrientsAppend(a + b, c);
    NutrientsAppend(a + b + c, d);
    LineIfShows(n, Calories);
    LineIfShows(n, Protein);
    LineIfShows(n, Carbs);
    LineIfShows(n, Fat);
    ShowsValuesAppend(n, a, b);
    ShowsValuesAppend(n, a + b, c);
    ShowsValuesAppend(n, a + b + c, d);
    a + b + c + d
  }

  /** A nutrient has a line exactly when its value is truthy. */
  lemma NutritionLinesPresence(n: Nutrition)
    ensures Calories in Nutrients(NutritionLines(n)) <==> Truthy(n.calories)
    ensures Protein in Nutrients(NutritionLines(n)) <==> Truthy(n.protein)
    ensures Carbs in Nutrients(NutritionLines(n)) <==> Truthy(n.carbs)
    ensures Fat in Nutrients(NutritionLines(n)) <==> Truthy(n.fat)
  {
    var p, q := Present(Calories, n.calories), Present(Protein, n.protein);
    var r, t := Present(Carbs, n.carbs), Present(Fat, n.fat);
    assert Nutrients(NutritionLines(n)) == p + q + r + t;
    assert Calories !in q + r + t && Protein !in p + r + t;
    assert Carbs !in p + q + t && Fat !in p + q + r;
  }

  /** The nutrition section appears exactly when it has at least one line. */
  lemma NutritionShownIffLines(recipe: Recipe)
    ensures NutritionShown(recipe) <==>
      recipe.estimatedNutrition.Some? && |NutritionLines(recipe.estimatedNutrition.value)| > 0
  {
    if recipe.estimatedNutrition.Some? {
      var n := recipe.estimatedNutrition.value;
      var lines := NutritionLines(n);
      if Truthy(n.calories) || Truthy(n.protein) || Truthy(n.carbs) || Truthy(n.fat) {
        assert |lines| > 0;
      } else {
        assert |lines| == 0;
      }
    }
  }

  datatype Step = Step(number: string, text: string)

  /** `instructions.map((step, index) => ...)` with the badge `index + 1`:
      steps keep their order and carry distinct numbers 1..n. */
  function NumberedSteps(instructions: seq<string>): (steps: seq<Step>)
    ensures |steps| == |instructions|
    ensures forall i :: 0 <= i < |steps| ==> steps[i].text == instructions[i]
    ensures forall i :: 0 <= i < |steps| ==> steps[i].number == NatToString(i + 1)
    ensures forall i, j :: 0 <= i < j < |steps| ==> steps[i].number != steps[j].number
  {
    var steps := seq(|instructions|, i requires 0 <= i < |instructions| => Step(NatToString(i + 1), instructions[i]));
    assert forall i, j :: 0 <= i < j < |steps| ==> steps[i].number != steps[j].number by {
      forall i, j | 0 <= i < j < |steps| ensures steps[i].number != steps[j].number {
        if steps[i].number == steps[j].number {
          NatToStringInjective(i + 1, j + 1);
        }
      }
    }
    steps
  }
}

=== FILE: recipe_image.dfy ===
/** The image URL precedence shared by the recipe card and the recipe
    detail view: a usable `imageUrl` as is, else a search URL built from a
    non-empty `imageQuery`, else a fixed fallback picture. */
module RecipeImage {
  import opened Wrappers
  import opened Text
  import opened Types
  import opened Uri

  /** `imageUrl && (imageUrl.startsWith('data:image/') || imageUrl.startsWith('http'))`. */
  predicate IsUsableImageUrl(url: Option<string>) {
    url.Some? && (StartsWith(url.value, "data:image/") || StartsWith(url.value, "http"))
  }

  /** A search URL: `<searchBase><encoded query><suffix>`. */
  function SearchUrl(searchBase: string, query: string, suffix: string): string {
    searchBase + EncodeURIComponent(query) + suffix
  }

  /** The selection, for a given search base, suffix and fallback. */
  function ImageUrl(recipe: Recipe, searchBase: string, suffix: string, fallback: string): (url: string)
    ensures IsUsableImageUrl(recipe.imageUrl) ==> url == recipe.imageUrl.value
    ensures !IsUsableImageUrl(recipe.imageUrl) && Truthy(recipe.imageQuery) ==>
      url == SearchUrl(searchBase, recipe.imageQuery.value, suffix)
    ensures !IsUsableImageUrl(recipe.imageUrl) && !Truthy(recipe.imageQuery) ==> url == fallback
  {
    if IsUsableImageUrl(recipe.imageUrl) then recipe.imageUrl.value
    else if Truthy(recipe.imageQuery) then SearchUrl(searchBase, recipe.imageQuery.value, suffix)
    else fallback
  }

  /** The scheme every built-in URL starts with. */
  const Https := "https://"

  /** Any `https://` URL is accepted as is. */
  lemma HttpsIsUsable(rest: string)
    ensures StartsWith(Https + rest, "http")
  {
    assert (Https + rest)[..4] == Https[..4];
  }

  lemma StartsWithPrefixOfPrefix(s: string, p: string, q: string)
    requires StartsWith(s, p) && StartsWith(p, q)
    ensures StartsWith(s, q)
  {
    assert s[..|q|] == s[..|p|][..|q|];
  }

  /** With web search base and fallback, the chosen URL is one the selection
      accepts as is: storing it as `imageUrl` selects it again. */
  lemma ImageUrlIsStable(recipe: Recipe, searchBase: string, suffix: string, fallback: string)
    requires StartsWith(searchBase, "http") && StartsWith(fallback, "http")
    ensures var url := ImageUrl(recipe, searchBase, suffix, fallback);
      IsUsableImageUrl(Some(url))
      && ImageUrl(recipe.(imageUrl := Some(url)), searchBase, suffix, fallback) == url
  {
    var url := ImageUrl(recipe, searchBase, suffix, fallback);
    if !IsUsableImageUrl(recipe.imageUrl) && Truthy(recipe.imageQuery) {
      var tail := EncodeURIComponent(recipe.imageQuery.value) + suffix;
      assert url == searchBase + tail;
      assert StartsWith(url, searchBase);
      StartsWithPrefixOfPrefix(url, searchBase, "http");
    }
  }

  /** The query can be read back from a search URL: strip the base and the
      suffix, then percent-decode (for ASCII queries). */
  lemma SearchUrlRecoversQuery(searchBase: string, query: string, suffix: string)
    requires IsAscii(query)
    ensures var url := SearchUrl(searchBase, query, suffix);
      Decode(url[|searchBase|..|url| - |suffix|]) == query
  {
    var url := SearchUrl(searchBase, query, suffix);
    assert url[|searchBase|..|url| - |suffix|] == EncodeURIComponent(query);
    DecodeEncode(query);
  }
}

=== FILE: recipe_suggestions.dfy ===
/** Preference editing on the suggestions screen
    (components/RecipeSuggestions.tsx): each control emits a partial update
    that the home screen merges into the current preferences. */
module RecipeSuggestions {
  import opened Wrappers
  import opened Types
  import GeminiService

  /** A single preference chosen in the filter panel: `handlePreferenceChange(key, value)`. */
  datatype Setting =
    | SetTime(time: TimeAvailable)
    | SetGoal(goal: DietaryGoal)
    | SetDiets(diets: seq<string>)
    | SetServings(servings: int)

  /** `{ [key]: value }`: exactly the chosen key, with the chosen value. */
  function PreferenceChange(s: Setting): (u: PartialPreferences)
    ensures KeyCount(u) == 1
    ensures forall prev :: Merge(prev, u) == match s
      case SetTime(t) => prev.(timeAvailable := t)
      case SetGoal(g) => prev.(dietaryGoal := g)
      case SetDiets(ds) => prev.(specificDiets := ds)
      case SetServings(n) => prev.(desiredServings := Some(n))
  {
    match s
    case SetTime(t) => NoChange.(timeAvailable := Some(t))
    case SetGoal(g) => NoChange.(dietaryGoal := Some(g))
    case SetDiets(ds) => NoChange.(specificDiets := Some(ds))
    case SetServings(n) => NoChange.(desiredServings := Some(n))
  }

  /** `diets.filter(d => d !== diet)`. */
  function Without(diets: seq<string>, diet: string): (r: seq<string>)
    ensures diet !in r
    ensures forall d :: d in r <==> d in diets && d != diet
    ensures |r| <= |diets|
  {
    if diets == [] then []
    else if diets[0] == diet then Without(diets[1..], diet)
    else [diets[0]] + Without(diets[1..], diet)
  }

  lemma {:induction false} WithoutAppend(a: seq<string>, b: seq<string>, diet: string)
    ensures Without(a + b, diet) == Without(a, diet) + Without(b, diet)
  {
    if a == [] {
      assert a + b == b;
    } else {
      assert (a + b)[1..] == a[1..] + b;
      WithoutAppend(a[1..], b, diet);
    }
  }

  lemma {:induction false} WithoutAbsent(diets: seq<string>, diet: string)
    requires diet !in diets
    ensures Without(diets, diet) == diets
  {
    if diets != [] {
      WithoutAbsent(diets[1..], diet);
    }
  }

  /** `handleDietChange`'s list: a present diet is removed (every
      occurrence), an absent one is appended at the end; every other diet
      keeps its place in the relative order. */
  function ToggleDiet(diets: seq<string>, diet: string): (r: seq<string>)
    ensures diet in r <==> diet !in diets
    ensures diet !in diets ==> r == diets + [diet]
    ensures Without(r, diet) == Without(diets, diet)
    ensures forall d :: d != diet ==> (d in r <==> d in diets)
  {
    if diet in diets then
      var r := Without(diets, diet);
      WithoutAbsent(r, diet);
      r
    else
      WithoutAppend(diets, [diet], diet);
      assert Without([diet], diet) == [];
      diets + [diet]
  }

  /** Toggling an absent diet twice restores the list. */
  lemma ToggleTwiceRestores(diets: seq<string>, diet: string)
    requires diet !in diets
    ensures ToggleDiet(ToggleDiet(diets, diet), diet) == diets
  {
    WithoutAbsent(diets, diet);
  }

  /** `handleDietChange(diet)`: an update of the diet list alone. */
  function DietChange(prefs: UserPreferences, diet: string): (u: PartialPreferences)
    ensures KeyCount(u) == 1
    ensures var after := Merge(prefs, u);
      && (diet in after.specificDiets <==> diet !in prefs.specificDiets)
      && after == prefs.(specificDiets := after.specificDiets)
      && after.specificDiets == ToggleDiet(prefs.specificDiets, diet)
  {
    NoChange.(specificDiets := Some(ToggleDiet(prefs.specificDiets, diet)))
  }

  /** `handleDecreaseServings`: the current value (absent or 0 read as 1)
      goes down by one when above 1; otherwise no update is emitted. */
  function DecreaseServings(desired: Option<int>): (u: Option<PartialPreferences>)
    ensures u.Some? <==> desired.Some? && desired.value > 1
    ensures u.Some? ==> KeyCount(u.value) == 1 && u.value.desiredServings == Some(desired.value - 1)
  {
    var current := if desired.None? || desired.value == 0 then 1 else desired.value;
    if current > 1 then Some(NoChange.(desiredServings := Some(current - 1))) else None
  }

  /** `handleIncreaseServings`: the current value (absent or 0 read as 0)
      goes up by one. */
  function IncreaseServings(desired: Option<int>): (u: PartialPreferences)
    ensures KeyCount(u) == 1 && u.desiredServings.Some?
    ensures desired.Some? && desired.value != 0 ==> u.desiredServings.value == desired.value + 1
    ensures desired.None? || desired.value == 0 ==> u.desiredServings.value == 1
  {
    var current := if desired.None? || desired.value == 0 then 0 else desired.value;
    NoChange.(desiredServings := Some(current + 1))
  }

  /** With no servings set, the counter shows 4 but "+" stores 1. */
  lemma IncreaseFromAbsent(prefs: UserPreferences)
    requires prefs.desiredServings.None?
    ensures GeminiService.EffectiveServings(prefs.desiredServings) == 4
    ensures Merge(prefs, IncreaseServings(prefs.desiredServings)).desiredServings == Some(1)
  {
  }

  datatype ServingsButton = Minus | Plus

  /** One press of a servings button, merged into the preferences. */
  function Press(prefs: UserPreferences, b: ServingsButton): UserPreferences {
    match b
    case Plus => Merge(prefs, IncreaseServings(prefs.desiredServings))
    case Minus =>
      match DecreaseServings(prefs.desiredServings)
      case None => prefs
      case Some(u) => Merge(prefs, u)
  }

  function PressAll(prefs: UserPreferences, presses: seq<ServingsButton>): UserPreferences
    decreases |presses|
  {
    if presses == [] then prefs else PressAll(Press(prefs, presses[0]), presses[1..])
  }

  /** Starting from at least one serving, any sequence of presses keeps at
      least one serving; the buttons touch no other preference. */
  lemma {:induction false} ServingsStayPositive(prefs: UserPreferences, presses: seq<ServingsButton>)
    requires prefs.desiredServings.Some? && prefs.desiredServings.value >= 1
    ensures PressAll(prefs, presses).desiredServings.Some?
    ensures PressAll(prefs, presses).desiredServings.value >= 1
    ensures PressAll(prefs, presses) == prefs.(desiredServings := PressAll(prefs, presses).desiredServings)
    decreases |presses|
  {
    if presses != [] {
      ServingsStayPositive(Press(prefs, presses[0]), presses[1..]);
    }
  }
}

=== FILE: text.dfy ===
/** String helpers with the semantics of the JavaScript built-ins the
    application calls: `trim`, `toLowerCase`, `join`, `startsWith`, and the
    decimal rendering of numbers inside template literals. */
module Text {

  /** ECMAScript WhiteSpace and LineTerminator code points: exactly the
      characters `String.prototype.trim` removes. */
  predicate IsSpace(c: char) {
    || c == '\t' || c == '\n' || c == '\U{B}' || c == '\U{C}' || c == '\r'
    || c == ' ' || c == '\U{A0}' || c == '\U{1680}'
    || ('\U{2000}' <= c <= '\U{200A}')
    || c == '\U{2028}' || c == '\U{2029}' || c == '\U{202F}' || c == '\U{205F}'
    || c == '\U{3000}' || c == '\U{FEFF}'
  }

  predicate IsBlank(s: string) {
    forall i :: 0 <= i < |s| ==> IsSpace(s[i])
  }

  /** A string that `trim` leaves alone: empty, or non-space at both ends. */
  predicate IsTrimmed(s: string) {
    s == [] || (!IsSpace(s[0]) && !IsSpace(s[|s| - 1]))
  }

  /** Drops leading whitespace. */
  function TrimStart(s: string): string {
    if s != [] && IsSpace(s[0]) then TrimStart(s[1..]) else s
  }

  /** Drops trailing whitespace. */
  function TrimEnd(s: string): string {
    if s != [] && IsSpace(s[|s| - 1]) then TrimEnd(s[..|s| - 1]) else s
  }

  /** `s.trim()`: removes leading and trailing whitespace. */
  function Trim(s: string): (r: string)
    ensures IsTrimmed(r)
    ensures r == [] <==> IsBlank(s)
  {
    TrimFacts(s);
    TrimEnd(TrimStart(s))
  }

  lemma TrimFacts(s: string)
    ensures IsTrimmed(TrimEnd(TrimStart(s)))
    ensures TrimEnd(TrimStart(s)) == [] <==> IsBlank(s)
  {
    var t := TrimStart(s);
    var x := StartSplit(s);
    var y := EndSplit(t);
    EndKeepsFirst(t);
    if TrimEnd(t) == [] {
      assert t == y;
      BlankConcat(x, t);
    } else {
      assert s[|x|] == t[0];
    }
  }

  lemma BlankCons(c: char, s: string)
    requires IsSpace(c) && IsBlank(s)
    ensures IsBlank([c] + s)
  {
    assert forall i :: 1 <= i < |[c] + s| ==> ([c] + s)[i] == s[i - 1];
  }

  lemma BlankSnoc(s: string, c: char)
    requires IsBlank(s) && IsSpace(c)
    ensures IsBlank(s + [c])
  {
    assert forall i :: 0 <= i < |s| ==> (s + [c])[i] == s[i];
  }

  lemma BlankConcat(x: string, y: string)
    requires IsBlank(x) && IsBlank(y)
    ensures IsBlank(x + y)
  {
    assert forall i :: 0 <= i < |x| ==> (x + y)[i] == x[i];
    assert forall i :: |x| <= i < |x + y| ==> (x + y)[i] == y[i - |x|];
  }

  /** `s` is a blank prefix followed by `TrimStart(s)`, which starts with a
      non-space when it is not empty. */
  lemma {:induction false} StartSplit(s: string) returns (x: string)
    ensures s == x + TrimStart(s) && IsBlank(x)
    ensures TrimStart(s) == [] || !IsSpace(TrimStart(s)[0])
    decreases |s|
  {
    if s != [] && IsSpace(s[0]) {
      var x' := StartSplit(s[1..]);
      BlankCons(s[0], x');
      x := [s[0]] + x';
      calc {
        s;
        [s[0]] + s[1..];
        [s[0]] + (x' + TrimStart(s[1..]));
        x + TrimStart(s);
      }
    } else {
      x := [];
    }
  }

  /** `s` is `TrimEnd(s)` followed by a blank suffix; `TrimEnd(s)` ends with
      a non-space when it is not empty. */
  lemma {:induction false} EndSplit(s: string) returns (y: string)
    ensures s == TrimEnd(s) + y && IsBlank(y)
    ensures TrimEnd(s) == [] || !IsSpace(TrimEnd(s)[|TrimEnd(s)| - 1])
    decreases |s|
  {
    if s != [] && IsSpace(s[|s| - 1]) {
      var y' := EndSplit(s[..|s| - 1]);
      y := y' + [s[|s| - 1]];
      BlankSnoc(y', s[|s| - 1]);
      calc {
        s;
        s[..|s| - 1] + [s[|s| - 1]];
        (TrimEnd(s[..|s| - 1]) + y') + [s[|s| - 1]];
        TrimEnd(s) + y;
      }
    } else {
      y := [];
    }
  }

  /** Cutting trailing whitespace keeps a non-space first character. */
  lemma {:induction false} EndKeepsFirst(s: string)
    ensures s != [] && !IsSpace(s[0]) ==> TrimEnd(s) != [] && TrimEnd(s)[0] == s[0]
    decreases |s|
  {
    if s != [] && IsSpace(s[|s| - 1]) {
      EndKeepsFirst(s[..|s| - 1]);
    }
  }

  lemma {:induction false} StartOfPadded(a: string, m: string)
    requires IsBlank(a) && (m == [] || !IsSpace(m[0]))
    ensures TrimStart(a + m) == m
    decreases |a|
  {
    if a != [] {
      assert (a + m)[0] == a[0];
      assert (a + m)[1..] == a[1..] + m;
      StartOfPadded(a[1..], m);
    } else {
      assert a + m == m;
    }
  }

  lemma {:induction false} EndOfPadded(m: string, b: string)
    requires IsBlank(b) && (m == [] || !IsSpace(m[|m| - 1]))
    ensures TrimEnd(m + b) == m
    decreases |b|
  {
    if b != [] {
      var s := m + b;
      assert s[|s| - 1] == b[|b| - 1];
      assert s[..|s| - 1] == m + b[..|b| - 1];
      EndOfPadded(m, b[..|b| - 1]);
    } else {
      assert m + b == m;
    }
  }

  /** The trimmed form is determined by any split of `s` into a blank
      prefix, a trimmed middle and a blank suffix. */
  lemma TrimOfPadded(a: string, m: string, b: string)
    requires IsBlank(a) && IsBlank(b) && IsTrimmed(m)
    ensures Trim(a + m + b) == m
  {
    if m == [] {
      assert a + m + b == a + b;
      BlankConcat(a, b);
    } else {
      assert a + m + b == a + (m + b);
      assert (m + b)[0] == m[0];
      StartOfPadded(a, m + b);
      EndOfPadded(m, b);
    }
  }

  /** `trim` is idempotent. */
  lemma TrimIdempotent(s: string)
    ensures Trim(Trim(s)) == Trim(s)
  {
    var r := Trim(s);
    assert r == [] + r + [];
    TrimOfPadded([], r, []);
  }

  /** Every string is its trimmed form between a blank prefix and a blank suffix. */
  lemma TrimDecompose(s: string) returns (x: string, y: string)
    ensures s == x + Trim(s) + y && IsBlank(x) && IsBlank(y)
  {
    x := StartSplit(s);
    y := EndSplit(TrimStart(s));
  }

  /** Surrounding whitespace does not change the trimmed form. */
  lemma TrimIgnoresPadding(a: string, s: string, b: string)
    requires IsBlank(a) && IsBlank(b)
    ensures Trim(a + s + b) == Trim(s)
  {
    var x, y := TrimDecompose(s);
    var m := Trim(s);
    BlankConcat(a, x);
    BlankConcat(y, b);
    assert a + s + b == (a + x) + m + (y + b);
    TrimOfPadded(a + x, m, y + b);
  }

  /** Trimming two trimmed strings joined by one space drops the space
      when either string is empty. */
  lemma TrimSpaceJoin(q: string, u: string)
    requires IsTrimmed(q) && IsTrimmed(u)
    ensures Trim(q + " " + u) == if q == "" then u else if u == "" then q else q + " " + u
  {
    var joined := q + " " + u;
    if q == "" {
      assert joined == " " + u + [];
      assert IsBlank(" ");
      TrimOfPadded(" ", u, []);
    } else if u == "" {
      assert joined == [] + q + " ";
      assert IsBlank(" ");
      TrimOfPadded([], q, " ");
    } else {
      assert joined == [] + joined + [];
      assert joined[0] == q[0] && joined[|joined| - 1] == u[|u| - 1];
      TrimOfPadded([], joined, []);
    }
  }

  /** Lower-casing of one character. Exact for ASCII and Latin-1 capital
      letters (U+00C0..U+00DE except the multiplication sign U+00D7); other
      characters are left unchanged. */
  function LowerChar(c: char): char {
    if 'A' <= c <= 'Z' || ('\U{C0}' <= c <= '\U{DE}' && c != '\U{D7}') then
      (c as int + 32) as char
    else c
  }

  /** `s.toLowerCase()`, character by character. */
  function ToLower(s: string): (r: string)
    ensures |r| == |s|
    ensures forall i :: 0 <= i < |s| ==> r[i] == LowerChar(s[i])
  {
    seq(|s|, i requires 0 <= i < |s| => LowerChar(s[i]))
  }

  lemma ToLowerConcat(a: string, b: string)
    ensures ToLower(a + b) == ToLower(a) + ToLower(b)
  {
  }

  /** Lower-casing leaves whitespace alone. */
  lemma ToLowerBlank(a: string)
    requires IsBlank(a)
    ensures ToLower(a) == a
  {
  }

  /** Lower-casing twice is lower-casing once. */
  lemma ToLowerIdempotent(s: string)
    ensures ToLower(ToLower(s)) == ToLower(s)
  {
  }

  /** `parts.join(sep)`. */
  function Join(parts: seq<string>, sep: string): string
    decreases |parts|
  {
    if |parts| == 0 then ""
    else if |parts| == 1 then parts[0]
    else parts[0] + sep + Join(parts[1..], sep)
  }

  /** Joining one more part appends the separator and that part. */
  lemma {:induction false} JoinSnoc(parts: seq<string>, p: string, sep: string)
    requires |parts| > 0
    ensures Join(parts + [p], sep) == Join(parts, sep) + sep + p
    decreases |parts|
  {
    if |parts| == 1 {
      assert (parts + [p])[1..] == [p];
    } else {
      assert (parts + [p])[1..] == parts[1..] + [p];
      JoinSnoc(parts[1..], p, sep);
    }
  }

  /** With a non-empty separator, a join is empty exactly when there are no
      parts or a single empty part. */
  lemma JoinEmpty(parts: seq<string>, sep: string)
    requires sep != ""
    ensures Join(parts, sep) == "" <==> (parts == [] || parts == [""])
  {
    if |parts| > 1 {
      assert |Join(parts, sep)| >= |sep|;
    }
  }

  /** Position of the first occurrence of `c` in `s`. */
  function FirstIndexOf(s: string, c: char): (k: nat)
    requires c in s
    ensures k < |s| && s[k] == c
  {
    if s[0] == c then 0 else 1 + FirstIndexOf(s[1..], c)
  }

  lemma {:induction false} FirstIndexAfter(a: string, b: string, c: char)
    requires c !in a
    ensures FirstIndexOf(a + [c] + b, c) == |a|
  {
    if a != [] {
      assert (a + [c] + b)[1..] == a[1..] + [c] + b;
      FirstIndexAfter(a[1..], b, c);
    }
  }

  /** A separator that occurs in neither left part splits two strings the same way. */
  lemma SplitAtSeparator(a: string, b: string, a': string, b': string, c: char)
    requires c !in a && c !in a'
    requires a + [c] + b == a' + [c] + b'
    ensures a == a' && b == b'
  {
    var s := a + [c] + b;
    FirstIndexAfter(a, b, c);
    FirstIndexAfter(a', b', c);
    assert a == s[..|a|] == a';
    assert b == s[|a| + 1..] == b';
  }

  /** `s.startsWith(p)`. */
  predicate StartsWith(s: string, p: string) {
    |p| <= |s| && s[..|p|] == p
  }

  predicate IsDigit(c: char) {
    '0' <= c <= '9'
  }

  function DigitChar(d: nat): (c: char)
    requires d < 10
    ensures IsDigit(c)
  {
    ('0' as int + d) as char
  }

  /** Decimal rendering of a natural number, as in `${n}`. */
  function NatToString(n: nat): (r: string)
    ensures r != []
    ensures forall i :: 0 <= i < |r| ==> IsDigit(r[i])
    ensures |r| == 1 <==> n < 10
  {
    if n < 10 then [DigitChar(n)]
    else NatToString(n / 10) + [DigitChar(n % 10)]
  }

  /** Distinct numbers have distinct decimal renderings. */
  lemma {:induction false} NatToStringInjective(m: nat, n: nat)
    requires NatToString(m) == NatToString(n)
    ensures m == n
    decreases m
  {
    if m >= 10 {
      var a, b := NatToString(m), NatToString(n);
      assert a[..|a| - 1] == NatToString(m / 10);
      assert b[..|b| - 1] == NatToString(n / 10);
      NatToStringInjective(m / 10, n / 10);
      assert DigitChar(m % 10) == a[|a| - 1] == DigitChar(n % 10);
    }
  }

  /** Decimal rendering of an integer, with a leading minus sign when negative. */
  function IntToString(n: int): (r: string)
    ensures r != []
  {
    if n < 0 then "-" + NatToString(-n) else NatToString(n)
  }
}

=== FILE: types.dfy ===
/** The records of the application: ingredients, recipes, user preferences
    and the four screens. Optional properties are `Option`s; a missing string
    property of a parsed service item is the empty string. The truthiness
    guards treat the two alike (both are falsy); rendering does not, since
    JavaScript prints a missing property as `undefined`. */
module Types {
  import opened Wrappers

  datatype Ingredient = Ingredient(id: string, name: string, quantity: string, state: Option<string>)

  datatype RecipeIngredient = RecipeIngredient(name: string, quantity: string, unit: string)

  datatype Nutrition = Nutrition(
    calories: Option<string>,
    protein: Option<string>,
    carbs: Option<string>,
    fat: Option<string>)

  datatype Substitution = Substitution(originalIngredient: string, suggestion: string)

  datatype Recipe = Recipe(
    id: string,
    title: string,
    description: string,
    prepTime: string,
    cookTime: string,
    servings: int,
    ingredients: seq<RecipeIngredient>,
    instructions: seq<string>,
    dietaryTags: Option<seq<string>>,
    estimatedNutrition: Option<Nutrition>,
    possibleSubstitutions: Option<seq<Substitution>>,
    imageUrl: Option<string>,
    imageQuery: Option<string>)

  datatype TimeAvailable = Quick | Normal | Advanced

  datatype DietaryGoal = Light | Hearty | UseLeftovers

  datatype UserPreferences = UserPreferences(
    timeAvailable: TimeAvailable,
    dietaryGoal: DietaryGoal,
    specificDiets: seq<string>,
    desiredServings: Option<int>)

  /** `Partial<UserPreferences>`: `None` is a key that is not present. */
  datatype PartialPreferences = PartialPreferences(
    timeAvailable: Option<TimeAvailable>,
    dietaryGoal: Option<DietaryGoal>,
    specificDiets: Option<seq<string>>,
    desiredServings: Option<int>)

  /** The update with no keys. */
  const NoChange := PartialPreferences(None, None, None, None)

  /** Number of keys present in a partial update. */
  function KeyCount(u: PartialPreferences): nat {
    (if u.timeAvailable.Some? then 1 else 0) + (if u.dietaryGoal.Some? then 1 else 0)
    + (if u.specificDiets.Some? then 1 else 0) + (if u.desiredServings.Some? then 1 else 0)
  }

  /** `{ ...prev, ...update }`: every key present in the update replaces the
      previous value, every other key keeps it. */
  function Merge(prev: UserPreferences, update: PartialPreferences): (r: UserPreferences)
    ensures update.timeAvailable.None? ==> r.timeAvailable == prev.timeAvailable
    ensures update.dietaryGoal.None? ==> r.dietaryGoal == prev.dietaryGoal
    ensures update.specificDiets.None? ==> r.specificDiets == prev.specificDiets
    ensures update.desiredServings.None? ==> r.desiredServings == prev.desiredServings
    ensures update.timeAvailable.Some? ==> r.timeAvailable == update.timeAvailable.value
    ensures update.dietaryGoal.Some? ==> r.dietaryGoal == update.dietaryGoal.value
    ensures update.specificDiets.Some? ==> r.specificDiets == update.specificDiets.value
    ensures update.desiredServings.Some? ==> r.desiredServings == update.desiredServings
  {
    UserPreferences(
      update.timeAvailable.GetOr(prev.timeAvailable),
      update.dietaryGoal.GetOr(prev.dietaryGoal),
      update.specificDiets.GetOr(prev.specificDiets),
      if update.desiredServings.Some? then update.desiredServings else prev.desiredServings)
  }

  datatype AppView = Home | IngredientEdit | RecipeSuggestions | RecipeDetail

  /** JavaScript truthiness of an optional string. */
  predicate Truthy(s: Option<string>) {
    s.Some? && s.value != ""
  }
}

=== FILE: uri.dfy ===
/** `encodeURIComponent` on Unicode scalar values: unreserved characters
    stay, every other character becomes the percent-escaped bytes of its
    UTF-8 encoding, with upper-case hexadecimal digits. */
module Uri {

  /** The characters `encodeURIComponent` leaves unescaped. */
  predicate IsUnreserved(c: char) {
    || ('A' <= c <= 'Z') || ('a' <= c <= 'z') || ('0' <= c <= '9')
    || c == '-' || c == '_' || c == '.' || c == '!' || c == '~'
    || c == '*' || c == '\'' || c == '(' || c == ')'
  }

  predicate IsHexDigit(c: char) {
    ('0' <= c <= '9') || ('A' <= c <= 'F')
  }

  /** What an encoded string consists of. */
  predicate IsEncodedChar(c: char) {
    IsUnreserved(c) || c == '%'
  }

  /** Every `%` of an encoded string starts an escape: two hexadecimal
      digits follow it. */
  predicate EscapesComplete(r: string) {
    forall i :: 0 <= i < |r| && r[i] == '%' ==> i + 2 < |r| && IsHexDigit(r[i + 1]) && IsHexDigit(r[i + 2])
  }

  lemma EscapesCompleteConcat(a: string, b: string)
    requires EscapesComplete(a) && EscapesComplete(b)
    ensures EscapesComplete(a + b)
  {
    var ab := a + b;
    forall i | 0 <= i < |ab| && ab[i] == '%'
      ensures i + 2 < |ab| && IsHexDigit(ab[i + 1]) && IsHexDigit(ab[i + 2])
    {
      if i < |a| {
        assert a[i] == '%';
        assert ab[i + 1] == a[i + 1] && ab[i + 2] == a[i + 2];
      } else {
        assert b[i - |a|] == '%';
        assert ab[i + 1] == b[i + 1 - |a|] && ab[i + 2] == b[i + 2 - |a|];
      }
    }
  }

  function HexDigit(d: nat): (c: char)
    requires d < 16
    ensures IsHexDigit(c) && IsUnreserved(c)
  {
    if d < 10 then ('0' as int + d) as char else ('A' as int + d - 10) as char
  }

  function HexValue(c: char): (d: nat)
    requires IsHexDigit(c)
    ensures d < 16 && HexDigit(d) == c
  {
    if c <= '9' then c as int - '0' as int else c as int - 'A' as int + 10
  }

  /** The UTF-8 bytes of one character. */
  function Utf8(c: char): (bytes: seq<nat>)
    ensures 1 <= |bytes| <= 4
    ensures forall i :: 0 <= i < |bytes| ==> bytes[i] < 256
    ensures c as int < 0x80 ==> bytes == [c as int]
  {
    var n := c as int;
    if n < 0x80 then [n]
    else if n < 0x800 then [0xC0 + n / 0x40, 0x80 + n % 0x40]
    else if n < 0x1_0000 then [0xE0 + n / 0x1000, 0x80 + (n / 0x40) % 0x40, 0x80 + n % 0x40]
    else [0xF0 + n / 0x4_0000, 0x80 + (n / 0x1000) % 0x40, 0x80 + (n / 0x40) % 0x40, 0x80 + n % 0x40]
  }

  function Escape(bytes: seq<nat>): (r: string)
    requires forall i :: 0 <= i < |bytes| ==> bytes[i] < 256
    ensures |r| == 3 * |bytes|
    ensures forall i :: 0 <= i < |r| ==> IsEncodedChar(r[i])
    ensures EscapesComplete(r)
  {
    if bytes == [] then []
    else
      var rest := Escape(bytes[1..]);
      var e := ['%', HexDigit(bytes[0] / 16), HexDigit(bytes[0] % 16)];
      EscapesCompleteConcat(e, rest);
      e + rest
  }

  function EncodeChar(c: char): (r: string)
    ensures forall i :: 0 <= i < |r| ==> IsEncodedChar(r[i])
    ensures IsUnreserved(c) ==> r == [c]
    ensures EscapesComplete(r)
  {
    if IsUnreserved(c) then [c] else Escape(Utf8(c))
  }

  /** `encodeURIComponent(s)`: the result is unreserved characters and
      `%XX` escapes only, so it has no comma, slash, space or other
      separator, and unreserved text is unchanged. */
  function EncodeURIComponent(s: string): (r: string)
    ensures forall i :: 0 <= i < |r| ==> IsEncodedChar(r[i])
    ensures EscapesComplete(r)
    ensures (forall i :: 0 <= i < |s| ==> IsUnreserved(s[i])) ==> r == s
  {
    if s == [] then []
    else
      var rest := EncodeURIComponent(s[1..]);
      EscapesCompleteConcat(EncodeChar(s[0]), rest);
      EncodeChar(s[0]) + rest
  }

  /** Percent-decoding byte by byte: each `%XX` becomes the character with
      that code, anything else is kept. It inverts the encoding on ASCII
      text. */
  function Decode(s: string): string
  {
    if s == [] then []
    else if |s| >= 3 && s[0] == '%' && IsHexDigit(s[1]) && IsHexDigit(s[2]) then
      [(HexValue(s[1]) * 16 + HexValue(s[2])) as char] + Decode(s[3..])
    else [s[0]] + Decode(s[1..])
  }

  predicate IsAscii(s: string) {
    forall i :: 0 <= i < |s| ==> s[i] as int < 0x80
  }

  lemma DecodeEscapedChar(c: char, rest: string)
    requires c as int < 0x80
    ensures Decode(EncodeChar(c) + rest) == [c] + Decode(rest)
  {
    if !IsUnreserved(c) {
      var n := c as int;
      var e := EncodeChar(c);
      assert e == ['%', HexDigit(n / 16), HexDigit(n % 16)] + [];
      assert (e + rest)[3..] == rest;
      assert (HexValue(e[1]) * 16 + HexValue(e[2])) == n;
    } else {
      assert (EncodeChar(c) + rest)[1..] == rest;
    }
  }

  /** Decoding undoes `encodeURIComponent` on ASCII text. */
  lemma {:induction false} DecodeEncode(s: string)
    requires IsAscii(s)
    ensures Decode(EncodeURIComponent(s)) == s
  {
    if s != [] {
      var rest := EncodeURIComponent(s[1..]);
      assert EncodeURIComponent(s) == EncodeChar(s[0]) + rest;
      DecodeEscapedChar(s[0], rest);
      DecodeEncode(s[1..]);
      assert s == [s[0]] + s[1..];
    }
  }
}

=== FILE: wrappers.dfy ===
/** Option and Result: the absent-or-present values and the success-or-error
    outcomes of the application, in place of `undefined` and thrown errors. */
module Wrappers {

  datatype Option<+T> = None | Some(value: T) {
    /** The contained value, or `default` when absent (JavaScript's `x ?? d`). */
    function GetOr(default: T): T {
      match this
      case Some(v) => v
      case None => default
    }
  }

  datatype Result<+R, +E> = Success(value: R) | Failure(error: E)
}
